=== FILE: README.md ===
# PUMP/DUMP pari-mutuel betting engine — a Dafny model

The repository runs a Telegram betting game. Each round, players stake on
PUMP or DUMP. The round then resolves to one side, and the winners share
the pot, less a house cut, in proportion to their stakes. A web chart
follows the rounds over a websocket.

This project models the core of that game as pure state transformers over
immutable datatypes. Money is an exact `real`. Randomness and clock time are
parameters.

| file | module | models |
|---|---|---|
| `wrappers.dfy` | `Wrappers` | `Option` |
| `domain.dfy` | `Domain` | sides, round statuses, the configuration defaults of `bot/config.py`, a symbolic house edge `0 <= he < 1`, and Python's `int()` truncation in a countdown |
| `ledger.dfy` | `Ledger` | `bot/services/database.py` |
| `game_manager.dfy` | `GameManager` | `bot/services/game_manager.py` |
| `observer.dfy` | `Observer` | `backend/websocket_server.py` |
| `engine.dfy` | `Engine` | `main_with_websocket.py` |
| `betting.dfy` | `Betting` | `bot/handlers/betting.py` |
| `stats.dfy` | `Stats` | `bot/handlers/stats.py` and the win rate of `get_user_stats` |

**`Ledger`** models the persistent ledger:
- The users, rounds and bets tables, with one function per database method.
- A round's id is its position in `rounds`. A bet's id is its position in `bets`. User rows are keyed by Telegram id.
- The table invariant `Valid` says every round's pots are the sums of its bets.

**`GameManager`** models the round controller:
- The ordered bet validator and the guarded bet.
- The biased coin that picks a result.
- The three phases of a round, and the round counter.

**`Engine`** models the second, in-memory implementation in `main_with_websocket.py`. It is kept separate from the first because the two differ:
- It has no minimum or maximum bet.
- It uses a fair coin.
- Its 5% cut is a literal.
- It pays winners directly from its own `current_round` record.

**`Observer`** models the web chart's state record and client registry.

**`Betting`** models:
- the callback-data codec, with `str.split("_")` written out as `Split`;
- the handler routing;
- the custom-amount range check;
- the status text.

**`Stats`** models the statistics view and the performance tier ladder.

Randomness is the input `Coin(choice, jitter, draw)`:
- `choice` is `random.choice`;
- `jitter` is `random.uniform(-0.05, 0.05)`;
- `draw` is `random.random()`.

`datetime.now()` and `time.time()` become the parameter `now`.

## Model

| member | source | states |
|---|---|---|
| Domain.TimeRemaining | bot/services/game_manager.py:243-246 | `max(0, int(deadline - now))` is 0 exactly when less than a second is left. Otherwise it is the whole number of seconds left. |
| Ledger.PotIdentity | bot/services/database.py:185-202 | On a valid ledger, a round's `total_pot` is `pump_pot + dump_pot`. It is also the sum of the round's bet amounts. Both side pots are non-negative. |
| Ledger.GetOrCreateUser | bot/services/database.py:34-61 | An existing user is returned unchanged and only the names are updated. An unknown id gets a new row with balance 1.0 and zero statistics. No other user row changes. |
| Ledger.GetOrCreateKeepsBalances | bot/services/database.py:34-61 | Fetching or creating a user never changes a balance and never creates a negative one. |
| Ledger.CreateRound | bot/services/database.py:94-105 | A new round with a fresh id is appended: status `betting`, empty pots, betting ending `BETTING_PHASE` seconds after `now`. The earlier rounds, the users and the bets are untouched. |
| Ledger.LatestActive | bot/services/database.py:107-113 | Returns the highest id whose status is `betting` or `revealing`. Returns none exactly when no round is active. |
| Ledger.UpdateRoundStatus | bot/services/database.py:115-122 | Reports success exactly when the id exists. Only that round's status changes. |
| Ledger.UpdateRoundStatusKeepsValid | bot/services/database.py:115-122 | A status change keeps every round's pots equal to the sums of its bets. |
| Ledger.GetRoundStats | bot/services/database.py:150-161 | Returns none for a missing id. Otherwise it returns the round's pots and participant count. Each side's percentage times the total pot is that side's pot times 100, or the percentage is 0 when the pot is empty. |
| Ledger.PercentagesAddUp | bot/services/database.py:156-157 | On a valid ledger with a non-empty pot, the two percentages lie in [0, 100] and add up to 100. |
| Ledger.FirstBetIndex | bot/services/database.py:207-214 | Returns the first row placed by the user in the round. Returns none exactly when no such row exists. |
| Ledger.GetUserRoundBet | bot/services/database.py:207-214 | Any bet returned is a row of the table placed by that user in that round. Returns none exactly when no such row exists. |
| Ledger.UniqueBetFound | bot/services/database.py:207-214 | When each user bets at most once per round, the lookup finds exactly that user's bet. |
| Ledger.WageredSplits | bot/services/database.py:185-202 | The stake in a round is the PUMP stake plus the DUMP stake. |
| Ledger.PlaceBet | bot/services/database.py:164-205 | Appends exactly one unsettled row (user, round, side, amount). The round's total pot and exactly the chosen side's pot grow by `amount`, and its participant count by 1. The bettor's balance drops by `amount` and their `total_wagered` rises by it. No other user or round changes. It makes no balance or duplicate check. |
| Ledger.PlaceBetKeepsValid | bot/services/database.py:185-202 | A bet on an existing round keeps every round's pots equal to the sums of its bets. |
| Ledger.PlaceBetKeepsUnique | bot/services/database.py:164-172 | A bet by a user with no bet yet in the round keeps one bet per user and round. |
| Ledger.MarkedAt | bot/services/database.py:246-252 | Marking the winners changes each row on its own: a bet of the round on the winning side is marked won with `amount * multiplier`, and every other row is left as it was. |
| Ledger.DistributeWinnings | bot/services/database.py:216-268 | A missing round or an empty winning side changes nothing and returns 0. Otherwise each winning bet gets `is_winner` and `payout = amount * winners_pool / winning_pot`, and other bets are untouched. Each user's balance rises by the payout of their bet on the winning side. A bet on the losing side is never credited. The result is the number of winning bets. |
| Ledger.DistributeKeepsOneBet | bot/services/database.py:246-252 | Settling never changes who bet on which round, so bets stay one per user and round. |
| Ledger.MarkedPayoutsSum | bot/services/database.py:243-252 | After marking, the payouts on the winning side add up to the multiplier times the side's stake. |
| Ledger.PayoutsSumToPool | bot/services/database.py:229-252 | On a valid ledger, the recorded payouts add up to exactly `total_pot - total_pot * HE`. That amount lies between 0 and the total pot. |
| Ledger.PoolBounds | bot/services/database.py:229-231 | With `0 <= HE < 1` and a non-negative pot, the winners' pool lies between 0 and the pot. |
| Ledger.DistributeKeepsValid | bot/services/database.py:246-264 | Settlement changes only winner flags and payouts, so the pots still match the stakes. |
| Ledger.WinningPayout | bot/services/database.py:254-264 | The join matches only the user's bets in the round on the winning side. Without such a bet nothing is credited. With one, the credit is the payout of one of those bets. |
| Ledger.WinnersCredited | bot/services/database.py:254-264 | With one bet per user and round, each winner's balance rises by exactly their bet's payout. A user without a winning bet keeps their balance. |
| Ledger.CreditFollowsOwnBet | bot/services/database.py:254-264 | With one bet per user and round, the winning-side join credits each winning bettor their own bet's payout. It credits nothing to a user without a winning-side bet. |
| Ledger.DistributeKeepsBalancesNonNegative | bot/services/database.py:254-264 | Crediting winnings never makes a balance negative. |
| Ledger.CompleteRound | bot/services/database.py:124-148 | The round becomes `completed` with its result, house profit and end time. Each user with a bet in the round gains one game. A winner's `wins` rises by exactly 1 and `losses` stays; a loser's `losses` rises by exactly 1 and `wins` stays. Their `total_won` rises by the payout. Their balance, `total_wagered` and names are unchanged. Users without a bet in the round are unchanged. |
| Ledger.CompleteRoundKeepsValid | bot/services/database.py:124-148 | Completing a round keeps the pots equal to the stakes. |
| GameManager.PumpProbability | bot/services/game_manager.py:166-167 | After the jitter and the clamp, the PUMP probability lies in [0.4, 0.6]. |
| GameManager.DetermineResult | bot/services/game_manager.py:140-172 | An empty pot gives the uniform choice. Otherwise the result is PUMP exactly when the draw is below the clamped probability. A draw below 0.4 always gives PUMP, and a draw of 0.6 or more always gives DUMP. |
| GameManager.BiasFavoursSmallerPayout | bot/services/game_manager.py:150-163 | For non-negative pots, the base PUMP probability is 0.52 iff the DUMP pot is smaller, 0.48 iff the PUMP pot is smaller, and 0.5 iff they are equal. |
| GameManager.PayoutMonotone | bot/services/game_manager.py:152-153 | The payout a side would cost the house grows strictly with the opposing pot. |
| GameManager.JitterWithinClamp | bot/services/game_manager.py:165-167 | A jitter in [-0.05, 0.05] is never clipped. The probability is the base plus the jitter, within [0.43, 0.57]. |
| GameManager.MaxRoundNumber | bot/services/game_manager.py:44-48 | `COALESCE(MAX(round_number), 0)` is an upper bound on every round number. It is attained when there are rounds, and it is 0 when there are none. |
| GameManager.Start | bot/services/game_manager.py:42-51 | The counter is one more than the largest round number, or 1 when there are no rounds or the lookup failed. |
| GameManager.StartEstablishesInv | bot/services/game_manager.py:42-51 | A successful start on a consistent ledger sets up the controller invariant, and the counter is above every existing round number. |
| GameManager.CanPlaceBet | bot/services/game_manager.py:174-201 | Refuses with the first failing reason, in game_manager.py's order: no current round, the round is not in `betting`, below `MIN_BET`, above `MAX_BET`, insufficient balance, a bet already placed. Allows the bet exactly when none applies. Rounds and bets never change. Once the amount passes the range checks, `get_or_create_user` runs without names: it creates a missing row with balance 1.0, or sets a stored user's `username` and `first_name` to NULL. Before that point the users table is unchanged, and no balance ever changes. |
| GameManager.PlaceBet | bot/services/game_manager.py:203-229 | The verdict is the validator's. A refusal leaves rounds and bets unchanged. An accepted bet appends exactly one row for the user in the current round, grows that round's pot by `amount` and its participant count by 1, and debits the balance without making it negative. |
| GameManager.PlaceBetKeepsInv | bot/services/game_manager.py:203-214 | A guarded bet keeps the ledger valid, keeps one bet per user and round, and keeps balances non-negative. |
| GameManager.AcceptedBetLandsInOpenRound | bot/services/game_manager.py:177-214 | An accepted bet goes into an existing round in `betting`. Its total pot and the sum of its side pots both grow by `amount`. |
| GameManager.OpenRound | bot/services/game_manager.py:72-79 | Uses the counter as the round number and then advances it by 1. It creates a `betting` round, which becomes the current and the latest active round. |
| GameManager.OpenRoundKeepsInv | bot/services/game_manager.py:72-79 | Opening a round keeps the controller invariant and the counter fresh. |
| GameManager.CloseBetting | bot/services/game_manager.py:90-94 | The round moves to `revealing`. The statistics read afterwards carry the pots as they stood at closing. |
| GameManager.CloseBettingKeepsInv | bot/services/game_manager.py:90-91 | Closing betting keeps the controller invariant and the counter fresh. |
| GameManager.Settle | bot/services/game_manager.py:106-137 | The result is the biased coin's. `house_profit = total_pot * HE` whatever the result. The multiplier times the winning pot is the winners' pool, or the multiplier is 0 when the winning pot is 0. The round is `completed` and the current round is cleared. |
| GameManager.SettleKeepsInv | bot/services/game_manager.py:106-137 | Settlement keeps the controller invariant. |
| GameManager.SettlementBooks | bot/services/game_manager.py:106-124 | When someone backed the result, the payouts plus the house profit equal the pot at closing. When nobody did, no bet changes and the winner count is 0. |
| GameManager.PlaceAllKeepsInv | bot/services/game_manager.py:203-214 | Any sequence of bet requests keeps the controller invariant. |
| GameManager.RunRound | bot/services/game_manager.py:70-137 | One round takes the status through `betting`, `revealing` and `completed`, in that order. It uses the counter's value as its number, advances the counter by exactly 1, and clears the current round. |
| GameManager.RunRoundKeepsInv | bot/services/game_manager.py:70-137 | A whole round keeps the controller invariant. |
| GameManager.GetCurrentRoundInfo | bot/services/game_manager.py:231-254 | Gives nothing without a current or active round. Otherwise the round number, id and status are those of the latest active round (`get_current_round`), and the statistics are those of the controller's own round (`self.current_round`). The time remaining is 0 unless the round is in `betting`. In `betting` it is the seconds to the deadline truncated to a whole number and never negative: 0 exactly when under one second is left, otherwise `n` with `n <= left < n + 1`. |
| GameManager.GetUserCurrentBet | bot/services/game_manager.py:256-262 | Gives nothing, and changes nothing, without a current round. Otherwise it fetches or creates the user's row. Any bet returned is the user's own bet in the current round. Gives nothing exactly when the user has no bet there. |
| Observer.InitialState | backend/websocket_server.py:21-29 | Round 1, `waiting`, no time left, empty pots, no players, no history. |
| Observer.RegisterClient | backend/websocket_server.py:31-40 | The client joins the registry and is sent the current state. The state is unchanged. |
| Observer.UnregisterClient | backend/websocket_server.py:42-45 | The client leaves the registry and no one else does. An unknown client changes nothing. |
| Observer.RegisterThenUnregister | backend/websocket_server.py:31-45 | Connecting and then disconnecting a new client restores the server. |
| Observer.HandleMessage | backend/websocket_server.py:76-86 | `ping` gets a pong, and `get_state` gets the state. For a JSON object, any other type or no type gets no reply. A frame that is not an object never reaches this step: see `Observer.ReceiveFrame`. |
| Observer.ReceiveFrame | backend/websocket_server.py:60-80 | Invalid JSON is skipped with no reply, and the connection stays open. JSON that is not an object (a list, string or number) makes `data.get` raise an uncaught AttributeError: no reply is sent, the client is unregistered and the connection closes. An object is answered by `handle_message`. The state never changes. |
| Observer.FrameOutcomes | backend/websocket_server.py:60-86 | A reply is sent exactly for a `ping` or `get_state` object. A closed connection has removed the client from the registry. |
| Observer.RoundStarted | backend/websocket_server.py:89-103 | Sets the round number, `betting`, 20 seconds, zero pots and zero players. The history is kept. |
| Observer.BetPlaced | backend/websocket_server.py:106-123 | Overwrites only the two pots and the player count. |
| Observer.BettingClosed | backend/websocket_server.py:126-139 | Sets `revealing`, 15 seconds, and the given pots and count. The round number and the history are kept. |
| Observer.PushRecent | backend/websocket_server.py:149-159 | The new entry goes first, followed by the earlier entries in order. The list is cut back to at most 10. |
| Observer.RoundResult | backend/websocket_server.py:142-170 | Sets `waiting` and 3 seconds. The history holds the new entry first, then the previous list's first entries (at most 9). |
| Observer.Timer | backend/websocket_server.py:173-180 | Overwrites only `timeLeft`. |
| Observer.BetAndTimerCommute | backend/websocket_server.py:106-112 | A bet notification and a timer tick write disjoint fields, so their order does not matter. |
| Observer.PublishAllKeepsNewest | backend/websocket_server.py:149-159 | Publishing results one at a time from an empty history always leaves the last ten results, newest first. |
| Observer.RoundLifecycle | backend/websocket_server.py:89-159 | Start, close and result return the chart to `waiting` with this round's entry first and the closing pots shown. |
| Engine.Start | main_with_websocket.py:51-64 | The initial record is `waiting` with no bets and empty pots. The game loop starts at round 1. |
| Engine.WagerOf | main_with_websocket.py:260 | A user's entry in `current_round['bets']` is found exactly when they have one. |
| Engine.SidesMakeTotal | main_with_websocket.py:302-306 | With every type PUMP or DUMP, the two side sums add up to the total. |
| Engine.GetTimeRemaining | main_with_websocket.py:109-114 | 0 whenever the status is not `betting`. Otherwise it is the truncated seconds to the deadline: never negative, and 0 exactly when less than a second is left. |
| Engine.FixUserBalance | main_with_websocket.py:116-127 | A negative balance is reset to 1.0, and the reset is reported. Anything else, including a missing user, is left unchanged. |
| Engine.FixUserBalanceSettles | main_with_websocket.py:116-127 | After a fix the balance is non-negative, and a second fix does nothing. |
| Engine.FetchForBet | main_with_websocket.py:268-278 | The balance read for a bet is the stored one, or 1.0 after a fix. A new user starts at 1.0. Other users are unchanged. |
| Engine.BetCallback | main_with_websocket.py:248-315 | Refuses with no change when the status is not `betting`, when no time is left, or when the user already bet. Refuses for insufficient balance after the fetch and fix. Otherwise it debits `amount`, adds it to `total_wagered`, records the bet and its user, raises the total and exactly one side pot by `amount` (DUMP for any type other than PUMP), and mirrors the pots and player count to the chart. |
| Engine.BetKeepsTableValid | main_with_websocket.py:292-306 | A bet keeps one bet per user, the pots equal to the stakes, and the betting users equal to the bettors. |
| Engine.BetKeepsBalancesNonNegative | main_with_websocket.py:274-290 | An accepted bet never makes a balance negative. |
| Engine.OpenTable | main_with_websocket.py:581-595 | The record is reset to `betting` with no bets, no betting users and zero pots, and its deadline is 20 seconds after `now`. The chart shows a fresh round. |
| Engine.Tick | main_with_websocket.py:608-611 | The timer loop pushes the time remaining to the chart and changes nothing else. |
| Engine.CloseTable | main_with_websocket.py:617-627 | The record moves to `revealing`. The chart shows the closing pots and the number of bets. |
| Engine.ClosedTableRefusesBets | main_with_websocket.py:251-253 | Once betting has closed, every bet is refused without any change. |
| Engine.Winners | main_with_websocket.py:657 | The winners are exactly the bets whose type equals the result. |
| Engine.Losers | main_with_websocket.py:658 | The losers are exactly the bets whose type differs from the result. |
| Engine.WinnersLosersPartition | main_with_websocket.py:657-658 | Winners and losers split the bets with no overlap and nothing left out. |
| Engine.Credit | main_with_websocket.py:671-685 | A bettor gains one game. When their type equals the result, `wins` rises by exactly 1 and `losses` stays; otherwise `losses` rises by exactly 1 and `wins` stays. A winner's balance and `total_won` rise by `amount * multiplier`. A loser's balance is unchanged. |
| Engine.SettleUsers | main_with_websocket.py:664-724 | With one bet per user, each user is credited for their own bet alone, and a user without a bet is untouched. |
| Engine.SplitPot | main_with_websocket.py:660-666 | The cut is 5% of the pot, and cut plus pool is the pot. The multiplier times the winning pot is the pool, or the multiplier is 0 when the winning pot is empty. A non-negative pot gives a pool between 0 and the pot. |
| Engine.SettleTable | main_with_websocket.py:655-738 | The record becomes `completed` and the round number advances by 1. The split is the 5% split of the table's pots, and the winner count is the number of winning bets. The users are settled bet by bet. The chart returns to `waiting` with this round's result first. |
| Engine.SettlementPaysPool | main_with_websocket.py:660-677 | With someone backing the result, the payouts add up to exactly the winners' pool, which is at most the pot. |
| Engine.SettlementKeepsBalancesNonNegative | main_with_websocket.py:671-685 | Settlement never makes a balance negative. |
| Engine.Play | main_with_websocket.py:248-315 | No sequence of bet presses and timer ticks moves the table to another phase or round. |
| Engine.PlayKeepsTable | main_with_websocket.py:248-315 | Any sequence of bet presses and timer ticks keeps the table consistent and the chart in step with it. |
| Engine.RoundPhases | main_with_websocket.py:581-738 | Whatever bets and ticks arrive while betting is open, a round goes through `betting`, `revealing` and `completed` in order. The closing pots are the stakes, and the round number advances by one. The chart ends `waiting`, with this round's result, total stake and winner count first. |
| Engine.BetKeepsViewMirrored | main_with_websocket.py:309-315 | After a bet or a tick, the chart's pots and player count still equal the record's. |
| Betting.Split | bot/handlers/betting.py:266 | `str.split("_")` returns at least one part, and no part contains `_`. |
| Betting.SplitJoin | bot/handlers/betting.py:266-268 | Joining parts that contain no `_` and splitting again gives the parts back. |
| Betting.JoinSplit | bot/handlers/betting.py:266 | Splitting and joining again gives the string back. |
| Betting.EncodingsAreJoins | bot/handlers/betting.py:20-60 | Each button's data is its words joined with `_`. |
| Betting.SecondField | bot/handlers/betting.py:148 | Decoding succeeds exactly when the data has a second `_`-separated field. The result is that field (`split("_")[1]`) and contains no `_`; a missing field is the IndexError. The side handler reads its side this way, and the amount handler at betting.py:178 reads its amount text, before `float`, the same way. |
| Betting.DecodeConfirm | bot/handlers/betting.py:266-268 | Decoding succeeds exactly when there are at least four fields. The type is the third field and the amount the fourth. |
| Betting.DecodeQuickBet | bot/handlers/betting.py:310-312 | Decoding succeeds exactly when there are at least four fields. The amount is the third field and the type the fourth, the reverse of the confirmation's order. |
| Betting.ConfirmRoundTrip | bot/handlers/betting.py:60 | Decoding `confirm_bet_{type}_{amount}` returns the type and amount that were encoded, provided neither contains `_`. |
| Betting.QuickBetRoundTrip | bot/handlers/betting.py:24-25 | Decoding `quick_bet_{amount}_{type}` returns the amount as the third field and the type as the fourth. |
| Betting.BetTypeRoundTrip | bot/handlers/betting.py:20-21 | `bet_{type}` decodes to the type. |
| Betting.AmountRoundTrip | bot/handlers/betting.py:38-45 | `amount_{a}` decodes to `a`. |
| Betting.ButtonsDecode | bot/handlers/betting.py:20-45 | The literal button data decode to their side and amount. |
| Betting.StoredSideSurvivesConfirm | bot/handlers/betting.py:148-158 | A side decoded from `bet_` data can be stored, encoded into the confirm button and decoded again unchanged. |
| Betting.Route | bot/handlers/betting.py:107-334 | The handlers are tried in registration order: `bet_` data reaches the side handler, except `play`. |
| Betting.EncodedDataRoutes | bot/handlers/betting.py:20-60 | Each button's data reaches the handler that decodes it. |
| Betting.AmountInRange | bot/handlers/betting.py:226 | A custom amount is accepted exactly when it is a finite number in [MIN_BET, MAX_BET]. |
| Betting.NanPassesRangeGuard | bot/handlers/betting.py:223-228 | `float('nan')` gets past the guard as written but is rejected by the intended range check. |
| Betting.RangeGuardAgreesOffNan | bot/handlers/betting.py:226 | For every input other than NaN, the guard as written and the range check agree. |
| Betting.ProcessCustomAmountAsWritten | bot/handlers/betting.py:219-260 | The handler as written. Unparsable text is refused and the state kept. An amount the guard of line 226 rejects is refused and the state kept. A missing stored side asks to start over and clears the state. Otherwise the stored side is confirmed with the parsed value and the state cleared. |
| Betting.ProcessCustomAmount | bot/handlers/betting.py:219-260 | The corrected handler: the same steps with the intended range check. A confirmed amount is always a finite number in [MIN_BET, MAX_BET]. |
| Betting.NanReachesConfirmation | bot/handlers/betting.py:223-257 | With a side stored, the text `nan` clears the state and is offered for confirmation as written. The corrected handler refuses it as out of range. |
| Betting.HandlersAgreeOffNan | bot/handlers/betting.py:219-260 | For every input other than NaN, the handler as written and the corrected handler give the same reply and state. |
| Betting.AmountCallback | bot/handlers/betting.py:175-204 | Without a stored side, it asks to choose one first. Otherwise it confirms the stored side with the button's amount. |
| Betting.BetTypeCallback | bot/handlers/betting.py:145-173 | Checks the controller's validator with `MIN_BET`. A refusal is shown with its reason. An allowance stores the decoded side and asks for an amount. |
| Betting.SideThenCustomAmount | bot/handlers/betting.py:145-260 | Choosing a side and then typing an in-range amount confirms that side and amount. The confirm button decodes back to them. |
| Betting.GetRoundStatusText | bot/handlers/betting.py:70-100 | No round gives the waiting text. `betting` gives the betting text with the round number, time remaining, total pot and participants; the PUMP/DUMP breakdown is shown exactly when the pot is positive, and then carries the round's two pots and two percentages. `revealing` gives the revealing text with the round number, total pot, and both pots and percentages. Any other status gives the transition text, without reading the statistics. A betting or revealing round whose statistics are missing gives the error case. |
| Betting.ControllerNeverShowsTransition | bot/handlers/betting.py:96-97 | The controller only reports active rounds, so the transition text is never shown. |
| Stats.PerformanceRating | bot/handlers/stats.py:279-292 | The tier returned always meets its own bar. |
| Stats.RatingIsBestQualifying | bot/handlers/stats.py:279-292 | No tier above the one returned has its bar met, so the first match is the best qualifying tier. |
| Stats.BeginnerExactlyBelowForty | bot/handlers/stats.py:289-292 | The rating is Beginner exactly when the win rate is below 40. |
| Stats.FortyFiveIsAtLeastSkilled | bot/handlers/stats.py:287-292 | A win rate of 45 or more never gives Learning or Beginner. |
| Stats.RatingMonotone | bot/handlers/stats.py:279-292 | A higher win rate and a higher profit never give a lower tier. |
| Stats.StatusOf | bot/handlers/stats.py:74-86 | Profitable exactly when winnings exceed stakes. At Loss exactly when they fall short. Break Even exactly when they are equal. |
| Stats.AverageBet | bot/handlers/stats.py:75 | The average times the games played is the total wagered, or the average is 0 before the first game. It lies between 0 and the total for non-negative stakes. |
| Stats.WinRate | bot/services/database.py:87 | The win rate times the games played is 100 times the wins, or the rate is 0 before the first game. It lies in [0, 100]. |
| Stats.MyStats | bot/handlers/stats.py:64-107 | There are no figures exactly when the user is unknown. Otherwise it shows profit/loss, average bet, win rate, status and tier, all derived from the user's row. |
| Stats.NewUserStats | bot/services/database.py:53-58 | A fresh account breaks even with a zero average, a zero win rate and the Beginner tier. |
| Stats.ShowRank | bot/handlers/stats.py:161-162 | The rank line is shown exactly for a ranked user whose rank is above 10. |

## Left out

- **Telegram I/O.** Message texts, keyboards, `send_message`/`edit_text`, the notify and countdown helpers, and `show_play_interface` are left out. They are presentation and network calls.
- **Timers and concurrency.** `asyncio.sleep`, task creation and cancellation, and the retry loops are left out. So is the check-then-act race between `can_place_bet` and `db.place_bet`. Phases are sequential steps, with the time passed in.
- **Websocket transport.** `send_to_client`, `broadcast`, `handle_client`, `start_server` and `GameManager.broadcast_update`'s callback fan-out are left out. An update returns the message it would broadcast.
- **Other files.** `railway_server.py` and `railway_main.py` are a demo server and startup code. `bot/handlers/marketing.py` refers to names that are not defined, so it has no behaviour to model.
- **SQL reports and connection handling.** The leaderboard, game statistics and recent-rounds queries (`get_recent_rounds`, `get_user_balance`, `update_user_balance`) are left out, as are the connection pool and transactions. Each ledger method is atomic.
- **Float details.** Float rounding, the `Decimal(str(...))` conversions, `:.3f` formatting and SQL `ROUND` are left out; money is an exact `real`. The chart's history keeps the pot as a number, not as the formatted string.
- **Text parsing.** The parsing of `float(...)` text is left out. Decoders return the amount text, and `ProcessCustomAmount` takes the parsed value (or its failure) as input. A message without text (a sticker or a photo) has `message.text` of `None`. `.strip()` then raises an AttributeError, which `except ValueError` does not catch, so no reply is sent. The model answers every parse failure with `InvalidNumber`.
- **Engine runs as intended, not as written.** main_with_websocket.py cannot run as written: line 10 (`from aiogram import Bot, Dispatcher, `) is a SyntaxError, `F` is used from line 248 on but never imported, and `websocket_task` (line 772) is never assigned because line 757 is commented out. `Engine` models the file's evident intent, with the import completed and the task left out.
- **Configuration.** `bot/config.py` environment loading is left out. Its defaults are constants. The house edge of the ledger and controller is a parameter `0 <= he < 1`.
- **Users table keys.** The serial `users.id` is identified with the Telegram id. database.py joins bets to users on `users.id` but looks users up by `telegram_id`.
- Ledger.WinningPayout: the balance update joins only the user's bets on the winning side. If a user had several of those in a round, PostgreSQL's `UPDATE ... FROM` would credit one of them, and which one is unspecified. The model credits the earliest. `GameManager.CanPlaceBet` refuses a second bet, but the race between the check and `db.place_bet` (see above) can still let one through.
- Ledger.CompleteRound: the `is_winner` and `payout` columns are taken to start false and 0, since the schema is not shown.
- Ledger.CompleteRound: the statistics update at database.py:137-145 is also an `UPDATE ... FROM bets` join. If a user had two bets in the round, which row updates their statistics is unspecified. The model uses the first, through `GetUserRoundBet`. With one bet per user and round, which `GameManager.CanPlaceBet` aims for, there is no choice to make.
- GameManager.Start: a failed lookup restarts the counter at 1. Round numbers may then repeat, and the invariant about a fresh counter is stated only for a successful lookup.
- **Handler follow-through.** The confirm and quick-bet handlers call `game_manager.place_bet` after decoding. That call is modelled by `GameManager.PlaceBet`, which takes a `Side`. The mapping from the decoded string to a side (`GameConstants.BET_TYPES[...]`) is not modelled.
- **`house_profit` when nobody wins.** When nobody backed the result, database.py:240 comments "No winners, house keeps everything", and main_with_websocket.py:712 tells players "House keeps all". But game_manager.py:108 records `house_profit = total_pot * HOUSE_EDGE` whatever the result, and `GameManager.Settle` states that recorded value. The pot that is not paid out stays unrecorded.
- Stats.WinRate: the contract states the exact ratio, as the query evidently intends. database.py:87 applies `ROUND(..., 2)` to a `double precision` value. PostgreSQL has `round(numeric, integer)` and `round(double precision)`, but no `round(double precision, integer)`. So, reading the query, `get_user_stats` would fail as written, and the statistics views would never reach their figures. This was not executed.
- Stats.ShowRank: the rank line comes after the leaderboard query at stats.py:121-132, which applies `ROUND(<double precision>, 1)` to the win rate. That is the same `round(double precision, integer)` that PostgreSQL lacks (see Stats.WinRate). PostgreSQL resolves the function when it analyses the query, so, read as written, the query always raises and the guard is never reached. The member states the guard of stats.py:161 as intended. This was not executed.
- Ledger.GetRoundStats: the SQL `ROUND(..., 1)` of database.py:156-157 is not modelled. The percentages are the exact ratios.
- Ledger.PercentagesAddUp: holds for the exact ratios only. The rounded percentages can sum to other than 100: pots of 12.35 and 87.65 round to 12.4 and 87.7, which sum to 100.1.

## Findings

| source | as written | input that shows it | evidently intended | confidence | as-written member | corrected member |
|---|---|---|---|---|---|---|
| bot/handlers/betting.py:223-228 | `float(message.text)` accepts `"nan"`. The guard `amount < MIN_BET or amount > MAX_BET` is false for NaN, so NaN passes as a custom amount. With a side stored, lines 240-257 clear the state and offer it for confirmation. | the text `nan` | only finite amounts in [MIN_BET, MAX_BET] are accepted | not executed | Betting.NanReachesConfirmation | Betting.ProcessCustomAmount |

=== FILE: betting.dfy ===
/** The betting handlers of bot/handlers/betting.py: the button callback data
    they write and read back (split on '_' as Python's `str.split` does), the
    routing of callback data by prefix, the conversation state that carries
    the chosen side between steps, the custom-amount range check, and the
    choice of round status text.

    Telegram I/O and message wording are left out; a handler here returns
    the reply it selects. Float parsing is an input: `float(text)` arrives
    as an optional `PyFloat`, `None` standing for a ValueError. */
module Betting {
  import opened Wrappers
  import opened Domain
  import Ledger
  import GameManager

  const SEP: char := '_'

  // ---------------------------------------------------------------------------
  // Python's str.split and its inverse
  // ---------------------------------------------------------------------------

  /** `s.split(sep)`: the maximal runs between separators, always at least
      one (possibly empty) part. */
  function Split(s: string, sep: char): (parts: seq<string>)
    ensures |parts| >= 1
    ensures forall i :: 0 <= i < |parts| ==> sep !in parts[i]
    decreases |s|
  {
    if |s| == 0 then [""]
    else
      var rest := Split(s[1..], sep);
      if s[0] == sep then [""] + rest
      else [[s[0]] + rest[0]] + rest[1..]
  }

  /** `sep.join(parts)`. */
  function Join(parts: seq<string>, sep: char): string
    requires |parts| >= 1
    decreases |parts|
  {
    if |parts| == 1 then parts[0] else parts[0] + [sep] + Join(parts[1..], sep)
  }

  /** A string without the separator splits into itself. */
  lemma {:induction false} SplitNoSep(a: string, sep: char)
    requires sep !in a
    ensures Split(a, sep) == [a]
    decreases |a|
  {
    if |a| > 0 {
      SplitNoSep(a[1..], sep);
      assert [a[0]] + a[1..] == a;
    }
  }

  /** A separator-free prefix followed by the separator is split off as the
      first part. */
  lemma {:induction false} SplitConcat(a: string, sep: char, b: string)
    requires sep !in a
    ensures Split(a + [sep] + b, sep) == [a] + Split(b, sep)
    decreases |a|
  {
    var s := a + [sep] + b;
    if |a| == 0 {
      assert s[0] == sep && s[1..] == b;
    } else {
      assert s[0] == a[0];
      assert s[1..] == a[1..] + [sep] + b;
      SplitConcat(a[1..], sep, b);
      assert [a[0]] + a[1..] == a;
    }
  }

  /** Splitting a join of separator-free parts gives the parts back. */
  lemma {:induction false} SplitJoin(parts: seq<string>, sep: char)
    requires |parts| >= 1
    requires forall i :: 0 <= i < |parts| ==> sep !in parts[i]
    ensures Split(Join(parts, sep), sep) == parts
    decreases |parts|
  {
    if |parts| == 1 {
      SplitNoSep(parts[0], sep);
    } else {
      SplitJoin(parts[1..], sep);
      SplitConcat(parts[0], sep, Join(parts[1..], sep));
      assert [parts[0]] + parts[1..] == parts;
    }
  }

  /** Joining the parts of any string gives the string back. */
  lemma {:induction false} JoinSplit(s: string, sep: char)
    ensures Join(Split(s, sep), sep) == s
    decreases |s|
  {
    if |s| > 0 {
      JoinSplit(s[1..], sep);
      var rest := Split(s[1..], sep);
      if s[0] == sep {
        assert ([""] + rest)[1..] == rest;
        assert s == [sep] + s[1..];
      } else {
        var parts := [[s[0]] + rest[0]] + rest[1..];
        if |rest| == 1 {
          assert s == [s[0]] + s[1..];
        } else {
          assert parts[1..] == rest[1..];
          assert Join(rest, sep) == rest[0] + [sep] + Join(rest[1..], sep);
          assert s == [s[0]] + s[1..];
        }
      }
    }
  }

  // ---------------------------------------------------------------------------
  // Callback data
  // ---------------------------------------------------------------------------

  /** `bet_{type}`: the side buttons. */
  function EncodeBetType(betType: string): string {
    "bet_" + betType
  }

  /** `amount_{a}`: the amount buttons. */
  function EncodeAmount(amountText: string): string {
    "amount_" + amountText
  }

  /** `confirm_bet_{type}_{amount}`: the confirmation button. */
  function EncodeConfirm(betType: string, amountText: string): string {
    "confirm_bet_" + betType + "_" + amountText
  }

  /** `quick_bet_{amount}_{type}`: the quick-bet buttons. */
  function EncodeQuickBet(amountText: string, betType: string): string {
    "quick_bet_" + amountText + "_" + betType
  }

  /** Each encoding is the '_'-join of its fields. */
  lemma EncodingsAreJoins(betType: string, amountText: string)
    ensures EncodeBetType(betType) == Join(["bet", betType], SEP)
    ensures EncodeAmount(amountText) == Join(["amount", amountText], SEP)
    ensures EncodeConfirm(betType, amountText) == Join(["confirm", "bet", betType, amountText], SEP)
    ensures EncodeQuickBet(amountText, betType) == Join(["quick", "bet", amountText, betType], SEP)
  {
    assert Join([betType, amountText], SEP) == betType + [SEP] + amountText;
    assert Join(["bet", betType, amountText], SEP) == "bet" + [SEP] + (betType + [SEP] + amountText);
    assert Join([amountText, betType], SEP) == amountText + [SEP] + betType;
    assert Join(["bet", amountText, betType], SEP) == "bet" + [SEP] + (amountText + [SEP] + betType);
  }

  /** `split("_")[1]`, the field the side buttons (`bet_<side>`) and the
      amount buttons (`amount_<text>`, before `float`) carry; `None` is an
      IndexError. */
  function SecondField(data: string): (f: Option<string>)
    ensures f.Some? <==> |Split(data, SEP)| >= 2
    ensures f.Some? ==> f.value == Split(data, SEP)[1]
    ensures f.Some? ==> SEP !in f.value
  {
    var parts := Split(data, SEP);
    if |parts| >= 2 then Some(parts[1]) else None
  }

  /** A bet read from button data: the side's name and the amount text,
      before `float`. */
  datatype Request = Request(betType: string, amountText: string)

  /** `parts[2]` (type) and `parts[3]` (amount) of the confirmation data. */
  function DecodeConfirm(data: string): (r: Option<Request>)
    ensures r.Some? <==> |Split(data, SEP)| >= 4
    ensures r.Some? ==> r.value.betType == Split(data, SEP)[2] && r.value.amountText == Split(data, SEP)[3]
  {
    var parts := Split(data, SEP);
    if |parts| >= 4 then Some(Request(parts[2], parts[3])) else None
  }

  /** `parts[2]` (amount) and `parts[3]` (type) of the quick-bet data: the
      fields come in the opposite order to the confirmation's. */
  function DecodeQuickBet(data: string): (r: Option<Request>)
    ensures r.Some? <==> |Split(data, SEP)| >= 4
    ensures r.Some? ==> r.value.amountText == Split(data, SEP)[2] && r.value.betType == Split(data, SEP)[3]
  {
    var parts := Split(data, SEP);
    if |parts| >= 4 then Some(Request(parts[3], parts[2])) else None
  }

  /** Reading back the confirmation data gives the side and amount it was
      written with, as long as neither contains '_'. */
  lemma ConfirmRoundTrip(betType: string, amountText: string)
    requires SEP !in betType && SEP !in amountText
    ensures DecodeConfirm(EncodeConfirm(betType, amountText)) == Some(Request(betType, amountText))
  {
    EncodingsAreJoins(betType, amountText);
    SplitJoin(["confirm", "bet", betType, amountText], SEP);
  }

  lemma QuickBetRoundTrip(amountText: string, betType: string)
    requires SEP !in betType && SEP !in amountText
    ensures DecodeQuickBet(EncodeQuickBet(amountText, betType)) == Some(Request(betType, amountText))
  {
    EncodingsAreJoins(betType, amountText);
    SplitJoin(["quick", "bet", amountText, betType], SEP);
  }

  lemma BetTypeRoundTrip(betType: string)
    requires SEP !in betType
    ensures SecondField(EncodeBetType(betType)) == Some(betType)
  {
    EncodingsAreJoins(betType, "");
    SplitJoin(["bet", betType], SEP);
  }

  lemma AmountRoundTrip(amountText: string)
    requires SEP !in amountText
    ensures SecondField(EncodeAmount(amountText)) == Some(amountText)
  {
    EncodingsAreJoins("", amountText);
    SplitJoin(["amount", amountText], SEP);
  }

  /** A side read from a side button never contains '_', so the confirmation
      data written for it always reads back to the same side. */
  lemma StoredSideSurvivesConfirm(data: string, amountText: string)
    requires SecondField(data).Some? && SEP !in amountText
    ensures DecodeConfirm(EncodeConfirm(SecondField(data).value, amountText))
         == Some(Request(SecondField(data).value, amountText))
  {
    ConfirmRoundTrip(SecondField(data).value, amountText);
  }

  /** The buttons' literal data decode to the side and amount they show. */
  lemma ButtonsDecode()
    ensures SecondField("bet_PUMP") == Some("PUMP") && SecondField("bet_DUMP") == Some("DUMP")
    ensures DecodeQuickBet("quick_bet_0.1_PUMP") == Some(Request("PUMP", "0.1"))
    ensures DecodeQuickBet("quick_bet_0.1_DUMP") == Some(Request("DUMP", "0.1"))
    ensures SecondField("amount_0.5") == Some("0.5")
  {
    assert "bet_PUMP" == EncodeBetType("PUMP") && "bet_DUMP" == EncodeBetType("DUMP");
    BetTypeRoundTrip("PUMP");
    BetTypeRoundTrip("DUMP");
    assert "quick_bet_0.1_PUMP" == EncodeQuickBet("0.1", "PUMP");
    assert "quick_bet_0.1_DUMP" == EncodeQuickBet("0.1", "DUMP");
    QuickBetRoundTrip("0.1", "PUMP");
    QuickBetRoundTrip("0.1", "DUMP");
    assert "amount_0.5" == EncodeAmount("0.5");
    AmountRoundTrip("0.5");
  }

  /** The handlers of the betting router, tried in registration order. */
  datatype Handler =
    | PlayH | BetTypeH | AmountH | CustomAmountH | ConfirmH | QuickBetH | RefreshH | MainMenuH | Unhandled

  predicate StartsWith(s: string, prefix: string) {
    |prefix| <= |s| && s[..|prefix|] == prefix
  }

  /** The first handler whose filter accepts the data. */
  function Route(data: string): (h: Handler)
    ensures h == BetTypeH <==> data != "play" && StartsWith(data, "bet_")
    ensures h == ConfirmH ==> StartsWith(data, "confirm_bet_")
    ensures h == QuickBetH ==> StartsWith(data, "quick_bet_")
  {
    if data == "play" then PlayH
    else if StartsWith(data, "bet_") then BetTypeH
    else if StartsWith(data, "amount_") then AmountH
    else if data == "custom_amount" then CustomAmountH
    else if StartsWith(data, "confirm_bet_") then ConfirmH
    else if StartsWith(data, "quick_bet_") then QuickBetH
    else if data == "refresh_round" then RefreshH
    else if data == "main_menu" then MainMenuH
    else Unhandled
  }

  /** Every button's data reaches the handler that decodes it. */
  lemma EncodedDataRoutes(betType: string, amountText: string)
    ensures Route(EncodeBetType(betType)) == BetTypeH
    ensures Route(EncodeAmount(amountText)) == AmountH
    ensures Route(EncodeConfirm(betType, amountText)) == ConfirmH
    ensures Route(EncodeQuickBet(amountText, betType)) == QuickBetH
  {
    var b := EncodeBetType(betType);
    assert b[0] == 'b' && b[..4] == "bet_";
    var a := EncodeAmount(amountText);
    assert a[0] == 'a' && a[..7] == "amount_";
    assert a[..4] != "bet_";
    var c := EncodeConfirm(betType, amountText);
    assert c[0] == 'c' && c[1] == 'o' && c[..12] == "confirm_bet_";
    assert c[..4] != "bet_" && c[..7] != "amount_" && c != "custom_amount";
    var q := EncodeQuickBet(amountText, betType);
    assert q[0] == 'q' && q[..10] == "quick_bet_";
    assert q[..4] != "bet_" && q[..7] != "amount_" && !StartsWith(q, "confirm_bet_");
  }

  // ---------------------------------------------------------------------------
  // Conversation state and the amount checks
  // ---------------------------------------------------------------------------

  /** The per-chat state: whether a custom amount is awaited and the stored
      `bet_type` (absent when the data was cleared). */
  datatype Conversation = Conversation(awaitingAmount: bool, betType: Option<string>)

  const Cleared: Conversation := Conversation(false, None)

  /** Python truthiness of the stored `bet_type`. */
  predicate HasSide(c: Conversation) {
    c.betType.Some? && c.betType.value != ""
  }

  /** A Python float as `float(text)` can produce it. */
  datatype PyFloat = Finite(value: real) | PosInf | NegInf | NaN

  /** IEEE `x < bound`: false whenever `x` is NaN. */
  predicate Below(x: PyFloat, bound: real) {
    match x
    case Finite(v) => v < bound
    case NegInf => true
    case PosInf => false
    case NaN => false
  }

  /** IEEE `x > bound`: false whenever `x` is NaN. */
  predicate Above(x: PyFloat, bound: real) {
    match x
    case Finite(v) => v > bound
    case NegInf => false
    case PosInf => true
    case NaN => false
  }

  /** The range guard as written: reject when `amount < MIN_BET or amount >
      MAX_BET`, accept otherwise. */
  predicate AcceptedAsWritten(x: PyFloat) {
    !(Below(x, MIN_BET) || Above(x, MAX_BET))
  }

  /** The intended range check: a number between the limits. */
  function AmountInRange(x: PyFloat): (ok: bool)
    ensures ok <==> x.Finite? && MIN_BET <= x.value <= MAX_BET
  {
    match x
    case Finite(v) => MIN_BET <= v <= MAX_BET
    case _ => false
  }

  /** The guard as written lets NaN through although NaN is no amount. */
  lemma NanPassesRangeGuard()
    ensures AcceptedAsWritten(NaN) && !AmountInRange(NaN)
  {
  }

  /** On every input other than NaN the guard as written and the intended
      check agree. */
  lemma RangeGuardAgreesOffNan(x: PyFloat)
    requires x != NaN
    ensures AcceptedAsWritten(x) <==> AmountInRange(x)
  {
  }

  datatype CustomReply =
    | InvalidNumber
    | OutOfRange
    | StartOver
    | ConfirmCustom(betType: string, amount: PyFloat)

  datatype CustomStep = CustomStep(conversation: Conversation, reply: CustomReply)

  /** `process_custom_amount` with the intended range check: a parse error or
      an amount out of range is answered and the conversation kept; with no
      stored side the user is sent back to the start; otherwise the
      conversation is cleared and the confirmation offered. */
  function ProcessCustomAmount(c: Conversation, parsed: Option<PyFloat>): (s: CustomStep)
    ensures s.reply == InvalidNumber <==> parsed.None?
    ensures s.reply == OutOfRange <==> parsed.Some? && !AmountInRange(parsed.value)
    ensures s.reply == StartOver <==> parsed.Some? && AmountInRange(parsed.value) && !HasSide(c)
    ensures s.reply.ConfirmCustom? <==> parsed.Some? && AmountInRange(parsed.value) && HasSide(c)
    ensures s.reply.ConfirmCustom? ==>
      s.reply == ConfirmCustom(c.betType.value, parsed.value)
      && s.reply.amount.Finite? && MIN_BET <= s.reply.amount.value <= MAX_BET
    ensures s.reply == InvalidNumber || s.reply == OutOfRange ==> s.conversation == c
    ensures s.reply == StartOver || s.reply.ConfirmCustom? ==> s.conversation == Cleared
  {
    match parsed
    case None => CustomStep(c, InvalidNumber)
    case Some(x) =>
      if !AmountInRange(x) then CustomStep(c, OutOfRange)
      else if !HasSide(c) then CustomStep(Cleared, StartOver)
      else CustomStep(Cleared, ConfirmCustom(c.betType.value, x))
  }

  /** `process_custom_amount` as written: the range guard of line 226, which
      lets NaN through to the confirmation. */
  function ProcessCustomAmountAsWritten(c: Conversation, parsed: Option<PyFloat>): (s: CustomStep)
    ensures s.reply == InvalidNumber <==> parsed.None?
    ensures s.reply == OutOfRange <==> parsed.Some? && !AcceptedAsWritten(parsed.value)
    ensures s.reply == StartOver <==> parsed.Some? && AcceptedAsWritten(parsed.value) && !HasSide(c)
    ensures s.reply.ConfirmCustom? <==> parsed.Some? && AcceptedAsWritten(parsed.value) && HasSide(c)
    ensures s.reply.ConfirmCustom? ==> s.reply == ConfirmCustom(c.betType.value, parsed.value)
    ensures s.reply == InvalidNumber || s.reply == OutOfRange ==> s.conversation == c
    ensures s.reply == StartOver || s.reply.ConfirmCustom? ==> s.conversation == Cleared
  {
    if parsed.None? then CustomStep(c, InvalidNumber)
    else if Below(parsed.value, MIN_BET) || Above(parsed.value, MAX_BET) then CustomStep(c, OutOfRange)
    else if HasSide(c) then CustomStep(Cleared, ConfirmCustom(c.betType.value, parsed.value))
    else CustomStep(Cleared, StartOver)
  }

  /** The text `nan` with a side stored reaches the confirmation as written,
      where the intended check refuses it. */
  lemma NanReachesConfirmation(c: Conversation)
    requires HasSide(c)
    ensures ProcessCustomAmountAsWritten(c, Some(NaN)) == CustomStep(Cleared, ConfirmCustom(c.betType.value, NaN))
    ensures ProcessCustomAmount(c, Some(NaN)) == CustomStep(c, OutOfRange)
  {
    NanPassesRangeGuard();
  }

  /** Off NaN the handler as written and the corrected handler agree. */
  lemma HandlersAgreeOffNan(c: Conversation, parsed: Option<PyFloat>)
    requires parsed != Some(NaN)
    ensures ProcessCustomAmountAsWritten(c, parsed) == ProcessCustomAmount(c, parsed)
  {
    if parsed.Some? {
      RangeGuardAgreesOffNan(parsed.value);
    }
  }

  datatype AmountReply = SelectSideFirst | ConfirmAmount(betType: string, amount: real)

  /** `amount_callback` after the amount is parsed: without a stored side
      the user is asked to pick one; the conversation is never changed. */
  function AmountCallback(c: Conversation, amount: real): (r: AmountReply)
    ensures r == SelectSideFirst <==> !HasSide(c)
    ensures r.ConfirmAmount? ==> r == ConfirmAmount(c.betType.value, amount)
  {
    if !HasSide(c) then SelectSideFirst else ConfirmAmount(c.betType.value, amount)
  }

  datatype SideReply = Denied(reason: GameManager.Refusal) | ChooseAmount(betType: string)

  datatype SideStep = SideStep(m: GameManager.Manager, conversation: Conversation, reply: Option<SideReply>)

  /** `bet_type_callback`: read the side, ask the controller whether a
      minimum bet would be allowed, and only then store the side. Data
      without a second part raises before anything happens. */
  function BetTypeCallback(m: GameManager.Manager, c: Conversation, key: UserKey, data: string): (s: SideStep)
    ensures SecondField(data).None? ==> s == SideStep(m, c, None)
    ensures SecondField(data).Some? ==>
      var check := GameManager.CanPlaceBet(m, key, MIN_BET);
      && s.m == m.(db := check.db)
      && (check.verdict.Refused? ==> s.reply == Some(Denied(check.verdict.reason)) && s.conversation == c)
      && (check.verdict == GameManager.Allowed ==>
            && s.reply == Some(ChooseAmount(SecondField(data).value))
            && s.conversation == c.(betType := SecondField(data))
            && SEP !in s.conversation.betType.value)
  {
    match SecondField(data)
    case None => SideStep(m, c, None)
    case Some(t) =>
      var check := GameManager.CanPlaceBet(m, key, MIN_BET);
      if check.verdict.Refused? then SideStep(m.(db := check.db), c, Some(Denied(check.verdict.reason)))
      else SideStep(m.(db := check.db), c.(betType := Some(t)), Some(ChooseAmount(t)))
  }

  /** Choosing a side and then an in-range custom amount leads to the
      confirmation for exactly that side and amount, and its button data
      reads back to the same side. */
  lemma SideThenCustomAmount(m: GameManager.Manager, c: Conversation, key: UserKey, data: string,
                             amount: real, amountText: string)
    requires GameManager.CanPlaceBet(m, key, MIN_BET).verdict == GameManager.Allowed
    requires SecondField(data).Some? && SecondField(data).value != ""
    requires MIN_BET <= amount <= MAX_BET && SEP !in amountText
    ensures var side := BetTypeCallback(m, c, key, data);
      var custom := ProcessCustomAmount(side.conversation, Some(Finite(amount)));
      && custom.reply == ConfirmCustom(SecondField(data).value, Finite(amount))
      && custom.conversation == Cleared
      && DecodeConfirm(EncodeConfirm(SecondField(data).value, amountText)) == Some(Request(SecondField(data).value, amountText))
  {
    ConfirmRoundTrip(SecondField(data).value, amountText);
  }

  // ---------------------------------------------------------------------------
  // Round status text
  // ---------------------------------------------------------------------------

  datatype Breakdown = Breakdown(pumpPot: real, pumpPercentage: real, dumpPot: real, dumpPercentage: real)

  /** Which status text is shown, with the figures it shows. */
  datatype StatusText =
    | WaitingText
    | BettingText(roundNumber: int, timeRemaining: nat, totalPot: real, participants: int,
                  breakdown: Option<Breakdown>)
    | RevealingText(roundNumber: int, totalPot: real, sides: Breakdown)
    | TransitionText
    | NoStats

  /** `get_round_status_text`. The status decides first; a betting or
      revealing round whose statistics are missing raises a KeyError when
      its pot is read, which `NoStats` stands for. The transition text reads
      no statistics. */
  function GetRoundStatusText(info: Option<GameManager.RoundInfo>): (t: StatusText)
    ensures t == WaitingText <==> info.None?
    ensures t == NoStats <==> info.Some? && info.value.stats.None? && IsActive(info.value.status)
    ensures t.BettingText? <==> info.Some? && info.value.stats.Some? && info.value.status == Betting
    ensures t.RevealingText? <==> info.Some? && info.value.stats.Some? && info.value.status == Revealing
    ensures t == TransitionText <==> info.Some? && !IsActive(info.value.status)
    ensures t.BettingText? ==>
      && t.roundNumber == info.value.roundNumber && t.timeRemaining == info.value.timeRemaining
      && t.totalPot == info.value.stats.value.totalPot
      && t.participants == info.value.stats.value.participants
      && (t.breakdown.Some? <==> info.value.stats.value.totalPot > 0.0)
      && (var st := info.value.stats.value;
          t.breakdown.Some? ==>
            t.breakdown.value == Breakdown(st.pumpPot, st.pumpPercentage, st.dumpPot, st.dumpPercentage))
    ensures t.RevealingText? ==>
      && t.roundNumber == info.value.roundNumber && t.totalPot == info.value.stats.value.totalPot
      && (var st := info.value.stats.value;
          t.sides == Breakdown(st.pumpPot, st.pumpPercentage, st.dumpPot, st.dumpPercentage))
  {
    match info
    case None => WaitingText
    case Some(r) =>
      if !IsActive(r.status) then TransitionText
      else
        match r.stats
        case None => NoStats
        case Some(st) =>
          var b := Breakdown(st.pumpPot, st.pumpPercentage, st.dumpPot, st.dumpPercentage);
          if r.status == Betting then
            BettingText(r.roundNumber, r.timeRemaining, st.totalPot, st.participants,
                        if st.totalPot > 0.0 then Some(b) else None)
          else RevealingText(r.roundNumber, st.totalPot, b)
  }

  /** The controller only ever reports an active round, so the transition
      text is never chosen for it. */
  lemma ControllerNeverShowsTransition(m: GameManager.Manager, now: real)
    ensures GetRoundStatusText(GameManager.GetCurrentRoundInfo(m, now)) != TransitionText
  {
  }
}

=== FILE: domain.dfy ===
/** Vocabulary shared by both betting engines: the two sides, the round phases,
    the configured limits (the defaults of bot/config.py) and Python's
    float-to-int truncation used for countdowns. Money is an exact `real`. */
module Domain {

  /** The two mutually exclusive bet choices. */
  datatype Side = Pump | Dump

  /** Round phases, in the order a round passes through them. */
  datatype Status = Waiting | Betting | Revealing | Completed

  /** A player's stable identity (the Telegram id). */
  type UserKey = int

  /** The house's share of every pot; symbolic, only its range is fixed. */
  type HouseEdge = he: real | 0.0 <= he < 1.0 witness 0.05

  /** Default configuration values. */
  const HOUSE_EDGE: HouseEdge := 0.05
  const MIN_BET: real := 0.01
  const MAX_BET: real := 10.0
  const BETTING_PHASE: int := 20

  /** The player balance a freshly created account starts with. */
  const STARTING_BALANCE: real := 1.0

  /** A round is "current" while bets are open or the result is pending. */
  predicate IsActive(s: Status) {
    s == Betting || s == Revealing
  }

  /** Python's `int(x)` on a float: truncation toward zero. */
  function Truncate(x: real): (r: int)
    ensures 0.0 <= x ==> 0 <= r && r as real <= x < r as real + 1.0
    ensures x < 0.0 ==> r <= 0 && r as real - 1.0 < x <= r as real
  {
    if x >= 0.0 then x.Floor else -((-x).Floor)
  }

  /** Whole seconds left until `deadline`, never negative: `max(0, int(deadline - now))`. */
  function TimeRemaining(deadline: real, now: real): (r: nat)
    ensures r == 0 <==> deadline - now < 1.0
    ensures r > 0 ==> r as real <= deadline - now < r as real + 1.0
  {
    var t := Truncate(deadline - now);
    if t < 0 then 0 else t
  }
}

=== FILE: engine.dfy ===
/** The second, self-contained engine of main_with_websocket.py: one in-memory
    `current_round` record (the table), the users table it debits and credits
    directly, the game loop's round counter and the web chart's observer it
    notifies. Unlike the round controller it has no minimum or maximum bet,
    resolves with a fair coin, and takes its 5% cut as a literal.

    The bet type is kept as the string carried by the button's callback
    data: a type other than "PUMP" is added to the DUMP pot, and only a type
    equal to the result's name wins. */
module Engine {
  import opened Wrappers
  import opened Domain
  import Ledger
  import Observer

  /** One entry of `current_round['bets']` (display name and chat id left out). */
  datatype Wager = Wager(user: UserKey, betType: string, amount: real)

  /** The `current_round` record. `bets` holds the dictionary's entries in
      insertion order. */
  datatype Table = Table(
    id: int,
    number: int,
    status: Status,
    bets: seq<Wager>,
    totalPot: real,
    pumpPot: real,
    dumpPot: real,
    bettingUsers: set<UserKey>,
    allUsers: set<UserKey>,
    activePlayers: set<UserKey>,
    startTime: real,
    bettingEndTime: real)

  datatype Engine = Engine(
    table: Table,
    users: map<UserKey, Ledger.User>,
    roundNumber: int,
    view: Observer.Server)

  /** The house's cut, written into the settlement as a literal. */
  const ENGINE_CUT: real := 0.05

  /** What a negative balance is reset to. */
  const RESET_BALANCE: real := 1.0

  /** The result's name as it appears in a bet's type. */
  function SideName(s: Side): (name: string)
    ensures name == "PUMP" <==> s == Pump
    ensures name == "DUMP" <==> s == Dump
  {
    match s
    case Pump => "PUMP"
    case Dump => "DUMP"
  }

  /** The record before the first round, and the game loop's first number. */
  function Start(users: map<UserKey, Ledger.User>, view: Observer.Server): (e: Engine)
    ensures e.table.status == Waiting && e.table.bets == [] && e.roundNumber == 1
    ensures e.table.totalPot == 0.0 && e.table.pumpPot == 0.0 && e.table.dumpPot == 0.0
    ensures e.users == users && e.view == view
  {
    Engine(Table(0, 0, Waiting, [], 0.0, 0.0, 0.0, {}, {}, {}, 0.0, 0.0), users, 1, view)
  }

  // ---------------------------------------------------------------------------
  // Aggregates over the bets
  // ---------------------------------------------------------------------------

  /** Sum of all stakes. */
  function Total(bets: seq<Wager>): real {
    if |bets| == 0 then 0.0 else Total(bets[..|bets| - 1]) + bets[|bets| - 1].amount
  }

  /** Sum of the stakes whose type is `betType`. */
  function StakedOn(bets: seq<Wager>, betType: string): real {
    if |bets| == 0 then 0.0
    else
      var w := bets[|bets| - 1];
      StakedOn(bets[..|bets| - 1], betType) + (if w.betType == betType then w.amount else 0.0)
  }

  /** Sum of the payouts to the bets of type `betType` at `multiplier`. */
  function Paid(bets: seq<Wager>, betType: string, multiplier: real): real {
    if |bets| == 0 then 0.0
    else
      var w := bets[|bets| - 1];
      Paid(bets[..|bets| - 1], betType, multiplier) + (if w.betType == betType then w.amount * multiplier else 0.0)
  }

  function UsersOf(bets: seq<Wager>): set<UserKey> {
    set i | 0 <= i < |bets| :: bets[i].user
  }

  predicate HasBet(bets: seq<Wager>, key: UserKey) {
    exists i :: 0 <= i < |bets| && bets[i].user == key
  }

  /** The dictionary holds at most one bet per user. */
  predicate DistinctUsers(bets: seq<Wager>) {
    forall i, j :: 0 <= i < j < |bets| ==> bets[i].user != bets[j].user
  }

  /** Every bet is typed PUMP or DUMP, as the betting buttons produce. */
  predicate WellTyped(bets: seq<Wager>) {
    forall i :: 0 <= i < |bets| ==> bets[i].betType == "PUMP" || bets[i].betType == "DUMP"
  }

  predicate StakesNonNegative(bets: seq<Wager>) {
    forall i :: 0 <= i < |bets| ==> bets[i].amount >= 0.0
  }

  /** The table's consistency: one bet per user, the pots are the sums of the
      stakes, and the betting users are exactly the bettors. */
  predicate TableValid(t: Table) {
    && DistinctUsers(t.bets)
    && t.totalPot == Total(t.bets)
    && t.pumpPot == StakedOn(t.bets, "PUMP")
    && t.pumpPot + t.dumpPot == t.totalPot
    && t.bettingUsers == UsersOf(t.bets)
    && t.bettingUsers <= t.activePlayers
  }

  /** The bet of `key`, if any (the last one, should there be several). */
  function WagerOf(bets: seq<Wager>, key: UserKey): (r: Option<Wager>)
    ensures r.None? <==> !HasBet(bets, key)
    ensures r.Some? ==> r.value in bets && r.value.user == key
  {
    if |bets| == 0 then None
    else if bets[|bets| - 1].user == key then Some(bets[|bets| - 1])
    else
      var r := WagerOf(bets[..|bets| - 1], key);
      assert r.Some? ==> r.value in bets by {
        if r.Some? {
          var i :| 0 <= i < |bets| - 1 && bets[..|bets| - 1][i] == r.value;
          assert bets[i] == r.value;
        }
      }
      r
  }

  /** With well-typed bets the two side sums make up the whole pot. */
  lemma {:induction false} SidesMakeTotal(bets: seq<Wager>)
    requires WellTyped(bets)
    ensures StakedOn(bets, "PUMP") + StakedOn(bets, "DUMP") == Total(bets)
  {
    if |bets| > 0 {
      SidesMakeTotal(bets[..|bets| - 1]);
    }
  }

  /** Paying `multiplier` per unit staked pays out the stake times the
      multiplier. */
  lemma {:induction false} PaidIsStakeTimesMultiplier(bets: seq<Wager>, betType: string, multiplier: real)
    ensures Paid(bets, betType, multiplier) == StakedOn(bets, betType) * multiplier
  {
    if |bets| > 0 {
      var n := |bets| - 1;
      var a := bets[n];
      PaidIsStakeTimesMultiplier(bets[..n], betType, multiplier);
      var paid := Paid(bets, betType, multiplier);
      var paidBefore := Paid(bets[..n], betType, multiplier);
      var staked := StakedOn(bets, betType);
      var stakedBefore := StakedOn(bets[..n], betType);
      if a.betType == betType {
        assert paid == paidBefore + a.amount * multiplier;
        assert staked == stakedBefore + a.amount;
        Ledger.ScaleSum(paid, paidBefore, staked, stakedBefore, a.amount, multiplier);
      } else {
        assert paid == paidBefore;
        assert staked == stakedBefore;
        assert staked * multiplier == stakedBefore * multiplier;
      }
      assert paid == staked * multiplier;
    }
  }

  lemma {:induction false} StakesNonNegativeTotal(bets: seq<Wager>)
    requires StakesNonNegative(bets)
    ensures Total(bets) >= 0.0
  {
    if |bets| > 0 {
      StakesNonNegativeTotal(bets[..|bets| - 1]);
    }
  }

  // ---------------------------------------------------------------------------
  // Time and balance repair
  // ---------------------------------------------------------------------------

  /** `get_time_remaining`: whole seconds of betting left, zero outside the
      betting phase. */
  function GetTimeRemaining(t: Table, now: real): (r: nat)
    ensures t.status != Betting ==> r == 0
    ensures t.status == Betting ==> (r == 0 <==> t.bettingEndTime - now < 1.0)
    ensures r > 0 ==> r as real <= t.bettingEndTime - now < r as real + 1.0
  {
    if t.status == Betting then TimeRemaining(t.bettingEndTime, now) else 0
  }

  /** `fix_user_balance`: a stored negative balance is reset to 1.0; the flag
      says whether anything was fixed. */
  function FixUserBalance(users: map<UserKey, Ledger.User>, key: UserKey): (r: (map<UserKey, Ledger.User>, bool))
    ensures r.1 <==> key in users && users[key].balance < 0.0
    ensures r.1 ==> r.0 == users[key := users[key].(balance := RESET_BALANCE)]
    ensures !r.1 ==> r.0 == users
  {
    if key in users && users[key].balance < 0.0 then
      (users[key := users[key].(balance := 1.0)], true)
    else (users, false)
  }

  /** After a repair the balance is non-negative and a second repair finds
      nothing to do. */
  lemma FixUserBalanceSettles(users: map<UserKey, Ledger.User>, key: UserKey)
    requires key in users
    ensures FixUserBalance(users, key).0[key].balance >= 0.0
    ensures !FixUserBalance(FixUserBalance(users, key).0, key).1
    ensures FixUserBalance(users, key).0.Keys == users.Keys
  {
  }

  /** The balance a bet is checked against: the stored one when
      non-negative, otherwise (new or repaired account) 1.0. */
  function EffectiveBalance(users: map<UserKey, Ledger.User>, key: UserKey): real {
    if key in users && users[key].balance >= 0.0 then users[key].balance else RESET_BALANCE
  }

  /** The accounting columns other than the balance agree. */
  predicate SameRecord(a: Ledger.User, b: Ledger.User) {
    && a.totalWagered == b.totalWagered && a.totalWon == b.totalWon
    && a.gamesPlayed == b.gamesPlayed && a.wins == b.wins && a.losses == b.losses
  }

  datatype Fetch = Fetch(users: map<UserKey, Ledger.User>, balance: real)

  /** The user lookup of `bet_callback`: fetch or create the user; if the
      balance read is negative, repair it and fetch again (without names). */
  function FetchForBet(users: map<UserKey, Ledger.User>, key: UserKey,
                       username: Option<string>, firstName: Option<string>): (f: Fetch)
    ensures f.balance == EffectiveBalance(users, key)
    ensures f.users.Keys == users.Keys + {key}
    ensures f.users[key].balance == f.balance
    ensures forall k :: k in users && k != key ==> f.users[k] == users[k]
    ensures key in users ==> SameRecord(f.users[key], users[key])
    ensures key !in users ==> SameRecord(f.users[key], Ledger.NewUser(None, None))
    ensures key in users && users[key].balance < 0.0 ==>
      f.users[key].username == None && f.users[key].firstName == None
    ensures !(key in users && users[key].balance < 0.0) ==>
      f.users[key].username == username && f.users[key].firstName == firstName
  {
    var first := Ledger.GetOrCreateUser(users, key, username, firstName);
    if first.user.balance < 0.0 then
      var repaired := FixUserBalance(first.users, key);
      var again := Ledger.GetOrCreateUser(repaired.0, key, None, None);
      Fetch(again.users, again.user.balance)
    else
      Fetch(first.users, first.user.balance)
  }

  // ---------------------------------------------------------------------------
  // Placing a bet
  // ---------------------------------------------------------------------------

  datatype BetRefusal =
    | BettingClosed
    | TimeUp
    | AlreadyBet
    | InsufficientBalance(need: real, have: real)

  datatype BetAnswer = Accepted | Refused(reason: BetRefusal)

  datatype BetReply = BetReply(e: Engine, answer: BetAnswer)

  /** `bet_callback` after the callback data is parsed: the guards in
      main_with_websocket.py's order, then the debit, the bet entry, the pots and the
      observer's notification. The user lookup (and repair) happens before
      the balance guard, so an insufficient balance may still have created or
      repaired the user's row. */
  function BetCallback(e: Engine, key: UserKey, username: Option<string>, firstName: Option<string>,
                       betType: string, amount: real, now: real): (r: BetReply)
    ensures r.answer == Refused(BettingClosed) <==> e.table.status != Betting
    ensures r.answer == Refused(TimeUp) <==> e.table.status == Betting && GetTimeRemaining(e.table, now) == 0
    ensures r.answer == Refused(AlreadyBet) <==>
      e.table.status == Betting && GetTimeRemaining(e.table, now) > 0 && HasBet(e.table.bets, key)
    ensures r.answer == Accepted <==>
      && e.table.status == Betting && GetTimeRemaining(e.table, now) > 0 && !HasBet(e.table.bets, key)
      && amount <= EffectiveBalance(e.users, key)
    ensures r.answer.Refused? && !r.answer.reason.InsufficientBalance? ==> r.e == e
    ensures r.answer.Refused? ==>
      && r.e.table == e.table && r.e.view == e.view && r.e.roundNumber == e.roundNumber
      && e.users.Keys <= r.e.users.Keys
      && (forall k :: k in e.users && k != key ==> r.e.users[k] == e.users[k])
    ensures r.answer.Refused? && r.answer.reason.InsufficientBalance? ==>
      r.answer.reason.have == EffectiveBalance(e.users, key) < amount == r.answer.reason.need
    ensures r.answer.Refused? && r.answer.reason.InsufficientBalance? ==>
      r.e == e.(users := FetchForBet(e.users, key, username, firstName).users)
    ensures r.e.table.id == e.table.id && r.e.table.allUsers == e.table.allUsers
      && r.e.table.startTime == e.table.startTime
    ensures r.answer == Accepted ==>
      && r.e.table.bets == e.table.bets + [Wager(key, betType, amount)]
      && r.e.table.bettingUsers == e.table.bettingUsers + {key}
      && r.e.table.activePlayers == e.table.activePlayers + {key}
      && r.e.table.totalPot == e.table.totalPot + amount
      && (betType == "PUMP" ==> r.e.table.pumpPot == e.table.pumpPot + amount && r.e.table.dumpPot == e.table.dumpPot)
      && (betType != "PUMP" ==> r.e.table.dumpPot == e.table.dumpPot + amount && r.e.table.pumpPot == e.table.pumpPot)
      && r.e.table.status == e.table.status && r.e.table.number == e.table.number
      && r.e.table.bettingEndTime == e.table.bettingEndTime
      && r.e.roundNumber == e.roundNumber
    ensures r.answer == Accepted ==>
      && r.e.users.Keys == e.users.Keys + {key}
      && r.e.users[key].balance == EffectiveBalance(e.users, key) - amount
      && r.e.users[key].totalWagered ==
           (if key in e.users then e.users[key].totalWagered else 0.0) + amount
      && (forall k :: k in e.users && k != key ==> r.e.users[k] == e.users[k])
    ensures r.answer == Accepted ==>
      var f := FetchForBet(e.users, key, username, firstName);
      r.e.users == f.users[key := f.users[key].(balance := f.balance - amount,
                                                totalWagered := f.users[key].totalWagered + amount)]
    ensures r.answer == Accepted ==>
      && r.e.view.clients == e.view.clients
      && r.e.view.state.round == e.view.state.round && r.e.view.state.phase == e.view.state.phase
      && r.e.view.state.timeLeft == e.view.state.timeLeft
      && r.e.view.state.recentResults == e.view.state.recentResults
      && r.e.view.state.pumpPot == r.e.table.pumpPot && r.e.view.state.dumpPot == r.e.table.dumpPot
      && r.e.view.state.playerCount == |r.e.table.bets|
  {
    if e.table.status != Betting then BetReply(e, Refused(BettingClosed))
    else if GetTimeRemaining(e.table, now) <= 0 then BetReply(e, Refused(TimeUp))
    else if HasBet(e.table.bets, key) then BetReply(e, Refused(AlreadyBet))
    else
      var fetched := FetchForBet(e.users, key, username, firstName);
      if fetched.balance < amount then
        BetReply(e.(users := fetched.users), Refused(InsufficientBalance(amount, fetched.balance)))
      else
        var u := fetched.users[key];
        var users' := fetched.users[key := u.(balance := u.balance - amount,
                                              totalWagered := u.totalWagered + amount)];
        var t := e.table;
        var t' := t.(bets := t.bets + [Wager(key, betType, amount)],
                     bettingUsers := t.bettingUsers + {key},
                     activePlayers := t.activePlayers + {key},
                     totalPot := t.totalPot + amount,
                     pumpPot := if betType == "PUMP" then t.pumpPot + amount else t.pumpPot,
                     dumpPot := if betType == "PUMP" then t.dumpPot else t.dumpPot + amount);
        var view' := Observer.BetPlaced(e.view, betType, amount, t'.pumpPot, t'.dumpPot, |t'.bets|).server;
        BetReply(Engine(t', users', e.roundNumber, view'), Accepted)
  }

  lemma UsersOfAppend(bets: seq<Wager>, w: Wager)
    ensures UsersOf(bets + [w]) == UsersOf(bets) + {w.user}
  {
    var s := bets + [w];
    forall k | k in UsersOf(s)
      ensures k in UsersOf(bets) + {w.user}
    {
      var i :| 0 <= i < |s| && s[i].user == k;
      if i < |bets| {
        assert bets[i].user == k;
      }
    }
    forall k | k in UsersOf(bets)
      ensures k in UsersOf(s)
    {
      var i :| 0 <= i < |bets| && bets[i].user == k;
      assert s[i].user == k;
    }
    assert s[|bets|].user == w.user;
  }

  /** An accepted bet keeps the table consistent. */
  lemma BetKeepsTableValid(e: Engine, key: UserKey, username: Option<string>, firstName: Option<string>,
                           betType: string, amount: real, now: real)
    requires TableValid(e.table)
    ensures TableValid(BetCallback(e, key, username, firstName, betType, amount, now).e.table)
  {
    var r := BetCallback(e, key, username, firstName, betType, amount, now);
    if r.answer == Accepted {
      var bets := e.table.bets;
      var w := Wager(key, betType, amount);
      var bets' := bets + [w];
      assert r.e.table.bets == bets';
      assert bets'[..|bets|] == bets;
      assert Total(bets') == Total(bets) + amount;
      assert StakedOn(bets', "PUMP") == StakedOn(bets, "PUMP") + (if betType == "PUMP" then amount else 0.0);
      UsersOfAppend(bets, w);
      assert DistinctUsers(bets') by {
        forall i, j | 0 <= i < j < |bets'|
          ensures bets'[i].user != bets'[j].user
        {
          if j == |bets| {
            assert bets'[i] == bets[i];
          } else {
            assert bets'[i] == bets[i] && bets'[j] == bets[j];
          }
        }
      }
    }
  }

  /** No bet leaves a negative balance behind: a new account starts at 1.0,
      a negative one is repaired first, and the debit never exceeds the
      balance it was checked against. */
  lemma BetKeepsBalancesNonNegative(e: Engine, key: UserKey, username: Option<string>, firstName: Option<string>,
                                    betType: string, amount: real, now: real)
    requires Ledger.BalancesNonNegative(e.users)
    ensures Ledger.BalancesNonNegative(BetCallback(e, key, username, firstName, betType, amount, now).e.users)
  {
    var r := BetCallback(e, key, username, firstName, betType, amount, now);
    if r.answer.Refused? && r.answer.reason.InsufficientBalance? {
      var f := FetchForBet(e.users, key, username, firstName);
      assert r.e.users == f.users;
    }
  }

  // ---------------------------------------------------------------------------
  // The game loop's phases
  // ---------------------------------------------------------------------------

  /** The observer shows the table's pots, bettor count and round number. */
  predicate ViewMirrors(e: Engine) {
    && e.view.state.pumpPot == e.table.pumpPot
    && e.view.state.dumpPot == e.table.dumpPot
    && e.view.state.playerCount == |e.table.bets|
    && e.view.state.round == e.table.number
  }

  /** A round opens: the record is reset for round `roundNumber` with twenty
      seconds of betting from `now`; the known and active players are kept. */
  function OpenTable(e: Engine, now: real): (e': Engine)
    ensures e'.table.status == Betting && e'.table.bets == [] && e'.table.bettingUsers == {}
    ensures e'.table.totalPot == 0.0 && e'.table.pumpPot == 0.0 && e'.table.dumpPot == 0.0
    ensures e'.table.id == e'.table.number == e.roundNumber
    ensures e'.table.startTime == now && e'.table.bettingEndTime == now + BETTING_PHASE as real
    ensures e'.table.allUsers == e.table.allUsers && e'.table.activePlayers == e.table.activePlayers
    ensures e'.users == e.users && e'.roundNumber == e.roundNumber
    ensures e'.view.state.phase == Betting && e'.view.state.timeLeft == BETTING_PHASE
    ensures TableValid(e'.table) && ViewMirrors(e')
    ensures GetTimeRemaining(e'.table, now) == BETTING_PHASE
  {
    var t := e.table.(id := e.roundNumber, number := e.roundNumber, status := Betting, bets := [],
                      totalPot := 0.0, pumpPot := 0.0, dumpPot := 0.0, bettingUsers := {},
                      startTime := now, bettingEndTime := now + 20.0);
    Engine(t, e.users, e.roundNumber, Observer.RoundStarted(e.view, e.roundNumber).server)
  }

  /** The timer loop's tick: the observer is sent the seconds left. */
  function Tick(e: Engine, now: real): (e': Engine)
    ensures e'.table == e.table && e'.users == e.users && e'.roundNumber == e.roundNumber
    ensures e'.view.state == e.view.state.(timeLeft := GetTimeRemaining(e.table, now))
  {
    e.(view := Observer.Timer(e.view, GetTimeRemaining(e.table, now)).server)
  }

  /** Betting closes: the table moves to revealing and the observer gets the
      final pots. */
  function CloseTable(e: Engine): (e': Engine)
    ensures e'.table == e.table.(status := Revealing)
    ensures e'.users == e.users && e'.roundNumber == e.roundNumber
    ensures e'.view.state.phase == Revealing
    ensures e'.view.state.pumpPot == e.table.pumpPot && e'.view.state.dumpPot == e.table.dumpPot
    ensures e'.view.state.playerCount == |e.table.bets|
  {
    var view' := Observer.BettingClosed(e.view, e.roundNumber, e.table.pumpPot, e.table.dumpPot,
                                        |e.table.bets|).server;
    e.(table := e.table.(status := Revealing), view := view')
  }

  /** Once closed, every bet is refused and nothing changes. */
  lemma ClosedTableRefusesBets(e: Engine, key: UserKey, username: Option<string>, firstName: Option<string>,
                               betType: string, amount: real, now: real)
    ensures var c := CloseTable(e);
      BetCallback(c, key, username, firstName, betType, amount, now) == BetReply(c, Refused(BettingClosed))
  {
  }

  /** The bets whose type is `betType`, in order. */
  function Winners(bets: seq<Wager>, betType: string): (w: seq<Wager>)
    ensures forall x :: x in w <==> x in bets && x.betType == betType
    ensures |w| <= |bets|
  {
    if |bets| == 0 then []
    else
      var rest := Winners(bets[..|bets| - 1], betType);
      var x := bets[|bets| - 1];
      assert forall y :: y in bets <==> y in bets[..|bets| - 1] || y == x by {
        assert bets == bets[..|bets| - 1] + [x];
      }
      if x.betType == betType then rest + [x] else rest
  }

  /** The other bets, in order. */
  function Losers(bets: seq<Wager>, betType: string): (l: seq<Wager>)
    ensures forall x :: x in l <==> x in bets && x.betType != betType
    ensures |l| <= |bets|
  {
    if |bets| == 0 then []
    else
      var rest := Losers(bets[..|bets| - 1], betType);
      var x := bets[|bets| - 1];
      assert forall y :: y in bets <==> y in bets[..|bets| - 1] || y == x by {
        assert bets == bets[..|bets| - 1] + [x];
      }
      if x.betType != betType then rest + [x] else rest
  }

  /** Winners and losers split the bets: every bet is in exactly one of them
      and together they count every bet once. */
  lemma {:induction false} WinnersLosersPartition(bets: seq<Wager>, betType: string)
    ensures |Winners(bets, betType)| + |Losers(bets, betType)| == |bets|
    ensures forall x :: x in bets ==> (x in Winners(bets, betType) <==> x !in Losers(bets, betType))
  {
    if |bets| > 0 {
      WinnersLosersPartition(bets[..|bets| - 1], betType);
    }
  }

  /** A user's settlement for their bet: a winner is paid `amount *
      multiplier` into both the balance and `total_won` and counts a win; a
      loser counts a loss. Either way one more game is played. */
  function Credit(u: Ledger.User, w: Wager, result: string, multiplier: real): (v: Ledger.User)
    ensures v.gamesPlayed == u.gamesPlayed + 1
    ensures v.wins + v.losses == u.wins + u.losses + 1
    ensures v.wins == u.wins + 1 <==> w.betType == result
    ensures v.wins == u.wins + (if w.betType == result then 1 else 0)
    ensures v.losses == u.losses + (if w.betType == result then 0 else 1)
    ensures v.balance - u.balance == v.totalWon - u.totalWon ==
      (if w.betType == result then w.amount * multiplier else 0.0)
    ensures v.totalWagered == u.totalWagered && v.username == u.username && v.firstName == u.firstName
  {
    if w.betType == result then
      var payout := w.amount * multiplier;
      u.(balance := u.balance + payout, wins := u.wins + 1, gamesPlayed := u.gamesPlayed + 1,
         totalWon := u.totalWon + payout)
    else
      u.(losses := u.losses + 1, gamesPlayed := u.gamesPlayed + 1)
  }

  function SettleUser(u: Ledger.User, w: Option<Wager>, result: string, multiplier: real): Ledger.User {
    match w
    case None => u
    case Some(x) => Credit(u, x, result, multiplier)
  }

  /** The settlement's user updates, one per bet in order; a bettor without a
      row is skipped (the UPDATE matches nothing). */
  function SettleUsers(users: map<UserKey, Ledger.User>, bets: seq<Wager>, result: string,
                       multiplier: real): (r: map<UserKey, Ledger.User>)
    ensures r.Keys == users.Keys
    ensures DistinctUsers(bets) ==>
      forall k :: k in users ==> r[k] == SettleUser(users[k], WagerOf(bets, k), result, multiplier)
  {
    if |bets| == 0 then users
    else
      var n := |bets| - 1;
      var rest := SettleUsers(users, bets[..n], result, multiplier);
      var w := bets[n];
      if w.user in rest then rest[w.user := Credit(rest[w.user], w, result, multiplier)] else rest
  }

  /** The settlement's arithmetic: the 5% cut, the winners' pool and the
      multiplier `winners_pool / winning_amount` (0 when nothing was staked
      on the winning side). */
  datatype PotSplit = PotSplit(houseCut: real, winnersPool: real, multiplier: real)

  function SplitPot(totalPot: real, winningPot: real): (p: PotSplit)
    ensures p.houseCut == totalPot * ENGINE_CUT
    ensures p.houseCut + p.winnersPool == totalPot
    ensures winningPot > 0.0 ==> p.multiplier * winningPot == p.winnersPool
    ensures winningPot <= 0.0 ==> p.multiplier == 0.0
    ensures totalPot >= 0.0 ==> 0.0 <= p.winnersPool <= totalPot && p.multiplier >= 0.0
  {
    var houseCut := totalPot * 0.05;
    var winnersPool := totalPot - houseCut;
    PotSplit(houseCut, winnersPool, if winningPot > 0.0 then winnersPool / winningPot else 0.0)
  }

  /** The pot of the side that won. */
  function WinningPot(t: Table, result: Side): real {
    if result == Pump then t.pumpPot else t.dumpPot
  }

  datatype Settlement = Settlement(e: Engine, winnerCount: nat, multiplier: real, houseCut: real, winnersPool: real)

  /** The result phase: with bets on the table, winners (type equal to the
      result) are paid `amount * winners_pool / winning_pot` after a 5% cut
      and losers count a loss; with no winners everyone counts a loss. The
      observer records the result, the table is completed and the loop's
      round number advances. */
  function SettleTable(e: Engine, result: Side): (s: Settlement)
    ensures s.e.table == e.table.(status := Completed)
    ensures s.e.roundNumber == e.roundNumber + 1
    ensures PotSplit(s.houseCut, s.winnersPool, s.multiplier) == SplitPot(e.table.totalPot, WinningPot(e.table, result))
    ensures s.winnerCount == |Winners(e.table.bets, SideName(result))|
    ensures s.e.users == SettleUsers(e.users, e.table.bets, SideName(result), s.multiplier)
    ensures s.e.view.state.phase == Waiting && s.e.view.clients == e.view.clients
    ensures |s.e.view.state.recentResults| >= 1
    ensures s.e.view.state.recentResults[0] ==
      Observer.Entry(e.roundNumber, result, e.table.totalPot, s.winnerCount)
  {
    var t := e.table;
    var name := SideName(result);
    var split := SplitPot(t.totalPot, WinningPot(t, result));
    var winnerCount := |Winners(t.bets, name)|;
    var users' := SettleUsers(e.users, t.bets, name, split.multiplier);
    var view' := Observer.RoundResult(e.view, e.roundNumber, result, t.totalPot, winnerCount).server;
    Settlement(Engine(t.(status := Completed), users', e.roundNumber + 1, view'),
               winnerCount, split.multiplier, split.houseCut, split.winnersPool)
  }

  /** With well-typed bets on a consistent table and someone backing the
      result, the payouts add up to exactly the winners' pool, which is at
      most the pot. */
  lemma SettlementPaysPool(e: Engine, result: Side)
    requires TableValid(e.table) && WellTyped(e.table.bets) && StakesNonNegative(e.table.bets)
    requires StakedOn(e.table.bets, SideName(result)) > 0.0
    ensures var s := SettleTable(e, result);
      && Paid(e.table.bets, SideName(result), s.multiplier) == s.winnersPool
      && 0.0 <= s.winnersPool <= e.table.totalPot
  {
    var t := e.table;
    var s := SettleTable(e, result);
    SidesMakeTotal(t.bets);
    StakesNonNegativeTotal(t.bets);
    var winning := WinningPot(t, result);
    assert winning == StakedOn(t.bets, SideName(result));
    SplitPaysPool(t.bets, SideName(result), t.totalPot, winning);
  }

  /** At the split's multiplier the stakes on the winning type collect exactly
      the winners' pool. */
  lemma SplitPaysPool(bets: seq<Wager>, name: string, totalPot: real, winning: real)
    requires winning == StakedOn(bets, name) && winning > 0.0
    ensures var split := SplitPot(totalPot, winning);
      Paid(bets, name, split.multiplier) == split.winnersPool
  {
    var split := SplitPot(totalPot, winning);
    var m := split.multiplier;
    assert StakedOn(bets, name) * m == split.winnersPool by {
      assert m * winning == split.winnersPool;
    }
    PaidIsStakeTimesMultiplier(bets, name, m);
  }

  /** A settlement never drives a balance negative when the stakes are
      non-negative. */
  lemma SettlementKeepsBalancesNonNegative(e: Engine, result: Side)
    requires TableValid(e.table) && StakesNonNegative(e.table.bets)
    requires Ledger.BalancesNonNegative(e.users)
    ensures Ledger.BalancesNonNegative(SettleTable(e, result).e.users)
  {
    var t := e.table;
    var s := SettleTable(e, result);
    StakesNonNegativeTotal(t.bets);
    assert s.winnersPool >= 0.0;
    var m := s.multiplier;
    assert m >= 0.0;
    forall k | k in s.e.users
      ensures s.e.users[k].balance >= 0.0
    {
      var w := WagerOf(t.bets, k);
      if w.Some? {
        var i :| 0 <= i < |t.bets| && t.bets[i] == w.value;
      }
      SettleUserKeepsBalance(e.users[k], w, SideName(result), m);
    }
  }

  lemma SettleUserKeepsBalance(u: Ledger.User, w: Option<Wager>, result: string, multiplier: real)
    requires u.balance >= 0.0 && multiplier >= 0.0
    requires w.Some? ==> w.value.amount >= 0.0
    ensures SettleUser(u, w, result, multiplier).balance >= 0.0
  {
    if w.Some? {
      NonNegativeProduct(w.value.amount, multiplier);
    }
  }

  lemma NonNegativeProduct(a: real, b: real)
    requires a >= 0.0 && b >= 0.0
    ensures a * b >= 0.0
  {
  }

  /** What can happen while betting is open: a bet button press or a tick of
      the timer loop. */
  datatype Action =
    | Press(key: UserKey, username: Option<string>, firstName: Option<string>, betType: string, amount: real, now: real)
    | TickAt(now: real)

  function Apply(e: Engine, a: Action): Engine {
    match a
    case Press(key, username, firstName, betType, amount, now) =>
      BetCallback(e, key, username, firstName, betType, amount, now).e
    case TickAt(now) => Tick(e, now)
  }

  /** The betting window's events, in order. Neither a bet nor a tick moves
      the table to another phase or another round. */
  function Play(e: Engine, actions: seq<Action>): (e': Engine)
    ensures e'.table.status == e.table.status && e'.table.number == e.table.number
    ensures e'.roundNumber == e.roundNumber
    decreases |actions|
  {
    if |actions| == 0 then e
    else Play(Apply(e, actions[0]), actions[1..])
  }

  /** Any sequence of bets and ticks keeps the table consistent and the
      observer in step with it. */
  lemma {:induction false} PlayKeepsTable(e: Engine, actions: seq<Action>)
    requires TableValid(e.table) && ViewMirrors(e)
    ensures TableValid(Play(e, actions).table) && ViewMirrors(Play(e, actions))
    decreases |actions|
  {
    if |actions| > 0 {
      match actions[0] {
        case Press(key, username, firstName, betType, amount, now) =>
          BetKeepsTableValid(e, key, username, firstName, betType, amount, now);
          BetKeepsViewMirrored(e, key, username, firstName, betType, amount, now);
        case TickAt(now) =>
          BetKeepsViewMirrored(e, 0, None, None, "", 0.0, now);
      }
      PlayKeepsTable(Apply(e, actions[0]), actions[1..]);
    }
  }

  /** One full round of the game loop, whatever bets and ticks arrive while
      betting is open: the table passes betting, revealing and completed in
      that order, the pots at closing are the stakes, the round number
      advances by one, and the observer ends waiting with this round's
      result, pot and winner count first. */
  lemma RoundPhases(e: Engine, openedAt: real, actions: seq<Action>, result: Side)
    ensures var o := OpenTable(e, openedAt);
      var p := Play(o, actions);
      var c := CloseTable(p);
      var s := SettleTable(c, result);
      && o.table.status == Betting && p.table.status == Betting
      && c.table.status == Revealing && s.e.table.status == Completed
      && TableValid(c.table) && c.table.totalPot == Total(p.table.bets)
      && s.e.roundNumber == e.roundNumber + 1
      && s.e.view.state.phase == Waiting
      && s.e.view.state.recentResults[0]
         == Observer.Entry(e.roundNumber, result, Total(p.table.bets), |Winners(p.table.bets, SideName(result))|)
  {
    var o := OpenTable(e, openedAt);
    PlayKeepsTable(o, actions);
  }

  /** Bets and ticks keep the observer in step with the table. */
  lemma BetKeepsViewMirrored(e: Engine, key: UserKey, username: Option<string>, firstName: Option<string>,
                             betType: string, amount: real, now: real)
    requires ViewMirrors(e)
    ensures ViewMirrors(BetCallback(e, key, username, firstName, betType, amount, now).e)
    ensures ViewMirrors(Tick(e, now))
  {
  }
}

=== FILE: game_manager.dfy ===
/** The round controller of bot/services/game_manager.py: the outcome
    determiner, the ordered bet validator, the guarded bet, the phases of
    one round and the read-only round views, all over the ledger.

    Randomness (`random.choice`, `random.uniform`, `random.random`) arrives
    as a `Coin`; wall-clock time as `now`; sleeps become phase boundaries. */
module GameManager {
  import opened Wrappers
  import opened Domain
  import Ledger

  datatype Manager = Manager(db: Ledger.Db, currentRound: Option<Ledger.RoundId>, roundCounter: int)

  // ---------------------------------------------------------------------------
  // Outcome determiner
  // ---------------------------------------------------------------------------

  /** The random draws one result needs: the uniform side for an empty pot,
      the jitter `uniform(-0.05, 0.05)` and the draw `random()` in [0, 1). */
  datatype Coin = Coin(choice: Side, jitter: real, draw: real)

  /** What the house would pay out if a side won: the other side's stake
      after the house edge. */
  function PayoutIfWins(otherPot: real, he: HouseEdge): real {
    if otherPot > 0.0 then otherPot * (1.0 - he) else 0.0
  }

  /** PUMP's base probability: nudged toward the side that pays out less. */
  function BaseProbability(pumpPot: real, dumpPot: real, he: HouseEdge): real {
    var pumpPayout := PayoutIfWins(dumpPot, he);
    var dumpPayout := PayoutIfWins(pumpPot, he);
    if pumpPayout < dumpPayout then 0.52
    else if dumpPayout < pumpPayout then 0.48
    else 0.5
  }

  /** PUMP's probability after jitter, clamped to [0.4, 0.6]. */
  function PumpProbability(pumpPot: real, dumpPot: real, he: HouseEdge, jitter: real): (p: real)
    ensures 0.4 <= p <= 0.6
  {
    var q := BaseProbability(pumpPot, dumpPot, he) + jitter;
    if q > 0.6 then 0.6 else if q < 0.4 then 0.4 else q
  }

  /** `determine_result`: a uniform choice for an empty pot, otherwise PUMP
      exactly when the draw falls below PUMP's probability. */
  function DetermineResult(totalPot: real, pumpPot: real, dumpPot: real, he: HouseEdge, coin: Coin): (s: Side)
    ensures totalPot == 0.0 ==> s == coin.choice
    ensures totalPot != 0.0 ==> (s == Pump <==> coin.draw < PumpProbability(pumpPot, dumpPot, he, coin.jitter))
    ensures totalPot != 0.0 && coin.draw < 0.4 ==> s == Pump
    ensures totalPot != 0.0 && coin.draw >= 0.6 ==> s == Dump
  {
    if totalPot == 0.0 then coin.choice
    else if coin.draw < PumpProbability(pumpPot, dumpPot, he, coin.jitter) then Pump
    else Dump
  }

  /** With non-negative pots the bias favours PUMP exactly when PUMP's win
      pays less (the DUMP side is smaller), DUMP in the mirror case, and is
      neutral on equal pots. */
  lemma BiasFavoursSmallerPayout(pumpPot: real, dumpPot: real, he: HouseEdge)
    requires pumpPot >= 0.0 && dumpPot >= 0.0
    ensures BaseProbability(pumpPot, dumpPot, he) == 0.52 <==> dumpPot < pumpPot
    ensures BaseProbability(pumpPot, dumpPot, he) == 0.48 <==> pumpPot < dumpPot
    ensures BaseProbability(pumpPot, dumpPot, he) == 0.5 <==> pumpPot == dumpPot
  {
    var pumpPays := PayoutIfWins(dumpPot, he);
    var dumpPays := PayoutIfWins(pumpPot, he);
    if dumpPot < pumpPot {
      PayoutMonotone(dumpPot, pumpPot, he);
      assert pumpPays < dumpPays;
    } else if pumpPot < dumpPot {
      PayoutMonotone(pumpPot, dumpPot, he);
      assert dumpPays < pumpPays;
    } else {
      assert pumpPays == dumpPays;
    }
  }

  /** The payout grows strictly with the losing side's stake. */
  lemma PayoutMonotone(a: real, b: real, he: HouseEdge)
    requires 0.0 <= a < b
    ensures PayoutIfWins(a, he) < PayoutIfWins(b, he)
  {
    var k := 1.0 - he;
    assert k > 0.0;
    if a > 0.0 {
      assert a * k < b * k;
    } else {
      assert 0.0 < b * k;
    }
  }

  /** A jitter within its range never reaches the clamp: the probability is
      the base plus the jitter, so it stays within [0.43, 0.57]. */
  lemma JitterWithinClamp(pumpPot: real, dumpPot: real, he: HouseEdge, jitter: real)
    requires -0.05 <= jitter <= 0.05
    ensures PumpProbability(pumpPot, dumpPot, he, jitter) == BaseProbability(pumpPot, dumpPot, he) + jitter
    ensures 0.43 <= PumpProbability(pumpPot, dumpPot, he, jitter) <= 0.57
  {
  }

  // ---------------------------------------------------------------------------
  // Counter and invariant
  // ---------------------------------------------------------------------------

  /** `COALESCE(MAX(round_number), 0)`. */
  function MaxRoundNumber(rounds: seq<Ledger.Round>): (n: int)
    ensures forall i :: 0 <= i < |rounds| ==> rounds[i].roundNumber <= n
    ensures |rounds| == 0 ==> n == 0
    ensures |rounds| > 0 ==> exists i :: 0 <= i < |rounds| && rounds[i].roundNumber == n
  {
    if |rounds| == 0 then 0
    else
      var rest := MaxRoundNumber(rounds[..|rounds| - 1]);
      var last := rounds[|rounds| - 1].roundNumber;
      if |rounds| == 1 || last > rest then last else rest
  }

  /** Start-up: the counter continues after the highest stored round number,
      or restarts at 1 when that lookup fails. */
  function Start(db: Ledger.Db, lookupFailed: bool): (m: Manager)
    ensures m.db == db && m.currentRound == None
    ensures lookupFailed ==> m.roundCounter == 1
    ensures !lookupFailed ==> forall i :: 0 <= i < |db.rounds| ==> db.rounds[i].roundNumber < m.roundCounter
    ensures !lookupFailed && |db.rounds| == 0 ==> m.roundCounter == 1
    ensures !lookupFailed && |db.rounds| > 0 ==>
      exists i :: 0 <= i < |db.rounds| && db.rounds[i].roundNumber == m.roundCounter - 1
  {
    Manager(db, None, if lookupFailed then 1 else MaxRoundNumber(db.rounds) + 1)
  }

  /** The next round number is fresh. */
  predicate FreshCounter(m: Manager) {
    forall i :: 0 <= i < |m.db.rounds| ==> m.db.rounds[i].roundNumber < m.roundCounter
  }

  /** The controller's invariant: a consistent ledger, one bet per user and
      round, no negative balance, and the controller's round (when set) is
      the ledger's current round. */
  predicate Inv(m: Manager) {
    && Ledger.Valid(m.db)
    && Ledger.OneBetPerUserRound(m.db.bets)
    && Ledger.BalancesNonNegative(m.db.users)
    && (m.currentRound.Some? ==> Ledger.LatestActive(m.db.rounds) == m.currentRound)
  }

  /** A successful start-up over a consistent ledger satisfies the invariant
      and never reuses a round number. */
  lemma StartEstablishesInv(db: Ledger.Db)
    requires Ledger.Valid(db) && Ledger.OneBetPerUserRound(db.bets) && Ledger.BalancesNonNegative(db.users)
    ensures Inv(Start(db, false)) && FreshCounter(Start(db, false))
  {
  }

  // ---------------------------------------------------------------------------
  // Bet validation
  // ---------------------------------------------------------------------------

  datatype Refusal =
    | NoActiveRound
    | BettingClosed
    | BelowMinimum
    | AboveMaximum
    | InsufficientBalance(balance: real)
    | AlreadyBet(side: Side, amount: real)

  datatype Verdict = Allowed | Refused(reason: Refusal)

  datatype Checked = Checked(db: Ledger.Db, verdict: Verdict)

  /** Whether the ledger's current round is taking bets. */
  predicate OpenForBets(db: Ledger.Db) {
    match Ledger.LatestActive(db.rounds)
    case None => false
    case Some(id) => db.rounds[id].status == Betting
  }

  /** The balance `get_or_create_user` reports for `key`. */
  function BalanceOf(users: map<UserKey, Ledger.User>, key: UserKey): real {
    if key in users then users[key].balance else STARTING_BALANCE
  }

  /** `can_place_bet`: the checks in game_manager.py's order, the first
      failing one decides. Fetching the user may create its row (and, as
      game_manager.py calls it without names, clears the stored names). */
  function CanPlaceBet(m: Manager, key: UserKey, amount: real): (c: Checked)
    ensures c.db.rounds == m.db.rounds && c.db.bets == m.db.bets
    ensures c.db.users.Keys <= m.db.users.Keys + {key}
    ensures forall k :: k in m.db.users ==> k in c.db.users && c.db.users[k].balance == m.db.users[k].balance
    ensures c.verdict == Refused(NoActiveRound) <==> m.currentRound.None?
    ensures c.verdict == Refused(BettingClosed) <==> m.currentRound.Some? && !OpenForBets(m.db)
    ensures c.verdict == Refused(BelowMinimum) <==>
      m.currentRound.Some? && OpenForBets(m.db) && amount < MIN_BET
    ensures c.verdict == Refused(AboveMaximum) <==>
      m.currentRound.Some? && OpenForBets(m.db) && MIN_BET <= amount && amount > MAX_BET
    ensures (c.verdict.Refused? && c.verdict.reason.InsufficientBalance?) <==>
      m.currentRound.Some? && OpenForBets(m.db) && MIN_BET <= amount <= MAX_BET
      && BalanceOf(m.db.users, key) < amount
    ensures (c.verdict.Refused? && c.verdict.reason.AlreadyBet?) <==>
      m.currentRound.Some? && OpenForBets(m.db) && MIN_BET <= amount <= MAX_BET
      && BalanceOf(m.db.users, key) >= amount
      && Ledger.GetUserRoundBet(m.db.bets, key, m.currentRound.value).Some?
    ensures c.verdict == Allowed <==>
      m.currentRound.Some? && OpenForBets(m.db) && MIN_BET <= amount <= MAX_BET
      && BalanceOf(m.db.users, key) >= amount
      && Ledger.GetUserRoundBet(m.db.bets, key, m.currentRound.value).None?
    ensures c.verdict == Allowed ==> key in c.db.users && c.db.users[key].balance == BalanceOf(m.db.users, key)
    ensures c.db.users ==
      if m.currentRound.Some? && OpenForBets(m.db) && MIN_BET <= amount <= MAX_BET
      then Ledger.GetOrCreateUser(m.db.users, key, None, None).users
      else m.db.users
  {
    if m.currentRound.None? then Checked(m.db, Refused(NoActiveRound))
    else if !OpenForBets(m.db) then Checked(m.db, Refused(BettingClosed))
    else if amount < MIN_BET then Checked(m.db, Refused(BelowMinimum))
    else if amount > MAX_BET then Checked(m.db, Refused(AboveMaximum))
    else
      var f := Ledger.GetOrCreateUser(m.db.users, key, None, None);
      var db' := m.db.(users := f.users);
      if f.user.balance < amount then Checked(db', Refused(InsufficientBalance(f.user.balance)))
      else
        match Ledger.GetUserRoundBet(m.db.bets, key, m.currentRound.value)
        case Some(b) => Checked(db', Refused(AlreadyBet(b.side, b.amount)))
        case None => Checked(db', Allowed)
  }

  datatype Placed = Placed(m: Manager, ok: bool, verdict: Verdict)

  /** `place_bet`: the validator, then the ledger's `place_bet` on the
      controller's round. */
  function PlaceBet(m: Manager, key: UserKey, side: Side, amount: real): (p: Placed)
    ensures p.verdict == CanPlaceBet(m, key, amount).verdict
    ensures p.ok <==> p.verdict == Allowed
    ensures p.m.currentRound == m.currentRound && p.m.roundCounter == m.roundCounter
    ensures |p.m.db.rounds| == |m.db.rounds|
    ensures forall j :: 0 <= j < |m.db.rounds| ==>
      p.m.db.rounds[j].status == m.db.rounds[j].status && p.m.db.rounds[j].roundNumber == m.db.rounds[j].roundNumber
    ensures forall k :: k in m.db.users && k != key ==> k in p.m.db.users && p.m.db.users[k].balance == m.db.users[k].balance
    ensures !p.ok ==> p.m.db.rounds == m.db.rounds && p.m.db.bets == m.db.bets
    ensures !p.ok ==> forall k :: k in m.db.users ==> k in p.m.db.users && p.m.db.users[k].balance == m.db.users[k].balance
    ensures p.ok ==> m.currentRound.Some?
    ensures p.ok ==>
      var r := m.currentRound.value;
      && p.m.db.bets == m.db.bets + [Ledger.Bet(key, r, side, amount, false, 0.0)]
      && key in p.m.db.users
      && p.m.db.users[key].balance == BalanceOf(m.db.users, key) - amount >= 0.0
    ensures p.ok && m.currentRound.value < |m.db.rounds| ==>
      var r := m.currentRound.value;
      && p.m.db.rounds[r].totalPot == m.db.rounds[r].totalPot + amount
      && p.m.db.rounds[r].participants == m.db.rounds[r].participants + 1
    ensures forall j :: 0 <= j < |m.db.rounds| && (m.currentRound.None? || j != m.currentRound.value) ==>
      p.m.db.rounds[j] == m.db.rounds[j]
  {
    var c := CanPlaceBet(m, key, amount);
    if c.verdict.Refused? then Placed(m.(db := c.db), false, c.verdict)
    else
      var r := m.currentRound.value;
      var f := Ledger.GetOrCreateUser(c.db.users, key, None, None);
      var db1 := c.db.(users := f.users);
      Placed(m.(db := Ledger.PlaceBet(db1, key, r, side, amount)), true, Allowed)
  }

  /** A bet through the controller keeps its invariant: pots stay equal to
      the bets, bets stay unique per user and round, no balance goes
      negative, and the current round is unchanged. */
  lemma PlaceBetKeepsInv(m: Manager, key: UserKey, side: Side, amount: real)
    requires Inv(m)
    ensures Inv(PlaceBet(m, key, side, amount).m)
  {
    var p := PlaceBet(m, key, side, amount);
    var c := CanPlaceBet(m, key, amount);
    if p.ok {
      var r := m.currentRound.value;
      var f := Ledger.GetOrCreateUser(c.db.users, key, None, None);
      var db1 := c.db.(users := f.users);
      Ledger.ValidFollowsTables(m.db, db1);
      Ledger.PlaceBetKeepsValid(db1, key, r, side, amount);
      Ledger.PlaceBetKeepsUnique(db1, key, r, side, amount);
      assert Ledger.LatestActive(p.m.db.rounds) == m.currentRound by {
        LatestActiveFollowsStatuses(m.db.rounds, p.m.db.rounds);
      }
    } else {
      Ledger.ValidFollowsTables(m.db, p.m.db);
    }
  }

  /** Under the invariant an accepted bet lands in the ledger's current
      round, which is open for bets, and its pots grow by the stake. */
  lemma AcceptedBetLandsInOpenRound(m: Manager, key: UserKey, side: Side, amount: real)
    requires Inv(m) && PlaceBet(m, key, side, amount).ok
    ensures m.currentRound.Some? && m.currentRound.value < |m.db.rounds|
    ensures m.db.rounds[m.currentRound.value].status == Betting
    ensures var p := PlaceBet(m, key, side, amount); var r := m.currentRound.value;
      && p.m.db.rounds[r].totalPot == m.db.rounds[r].totalPot + amount
      && p.m.db.rounds[r].pumpPot + p.m.db.rounds[r].dumpPot == m.db.rounds[r].pumpPot + m.db.rounds[r].dumpPot + amount
  {
    var r := m.currentRound.value;
    assert OpenForBets(m.db);
    var p := PlaceBet(m, key, side, amount);
    PlaceBetKeepsInv(m, key, side, amount);
    Ledger.PotIdentity(m.db, r);
    Ledger.PotIdentity(p.m.db, r);
  }

  /** The current round depends on the statuses only. */
  lemma LatestActiveFollowsStatuses(a: seq<Ledger.Round>, b: seq<Ledger.Round>)
    requires |a| == |b|
    requires forall j :: 0 <= j < |a| ==> a[j].status == b[j].status
    ensures Ledger.LatestActive(a) == Ledger.LatestActive(b)
  {
    if |a| > 0 {
      LatestActiveFollowsStatuses(a[..|a| - 1], b[..|b| - 1]);
    }
  }

  // ---------------------------------------------------------------------------
  // The phases of `run_round`
  // ---------------------------------------------------------------------------

  datatype Opened = Opened(m: Manager, id: Ledger.RoundId, roundNumber: int)

  /** Phase 1: take the counter, advance it by one and create the round in
      status betting; it becomes the controller's round. */
  function OpenRound(m: Manager, now: real): (o: Opened)
    ensures o.roundNumber == m.roundCounter && o.m.roundCounter == m.roundCounter + 1
    ensures o.id == |m.db.rounds| && |o.m.db.rounds| == |m.db.rounds| + 1
    ensures o.m.db.rounds[..o.id] == m.db.rounds
    ensures o.m.db.rounds[o.id].status == Betting && o.m.db.rounds[o.id].roundNumber == m.roundCounter
    ensures o.m.currentRound == Some(o.id)
    ensures Ledger.LatestActive(o.m.db.rounds) == Some(o.id)
  {
    var n := m.roundCounter;
    var c := Ledger.CreateRound(m.db, n, now);
    Opened(Manager(c.db, Some(c.id), n + 1), c.id, n)
  }

  /** Opening a round keeps the invariant and the freshness of the counter. */
  lemma OpenRoundKeepsInv(m: Manager, now: real)
    requires Inv(m) && FreshCounter(m)
    ensures Inv(OpenRound(m, now).m) && FreshCounter(OpenRound(m, now).m)
  {
    var o := OpenRound(m, now);
    var db' := o.m.db;
    forall q: Ledger.RoundId | q < |db'.rounds|
      ensures Ledger.PotsMatchAt(db', q)
    {
      if q < |m.db.rounds| {
        assert Ledger.PotsMatchAt(m.db, q);
      } else {
        Ledger.NoBetsNoStake(db'.bets, q);
      }
    }
  }

  datatype Closed = Closed(m: Manager, stats: Ledger.RoundStats)

  /** Phase 2: close betting (status revealing) and read the final pots. */
  function CloseBetting(m: Manager, id: Ledger.RoundId): (c: Closed)
    requires id < |m.db.rounds|
    ensures c.m.currentRound == m.currentRound && c.m.roundCounter == m.roundCounter
    ensures c.m.db.bets == m.db.bets && c.m.db.users == m.db.users
    ensures |c.m.db.rounds| == |m.db.rounds| && c.m.db.rounds[id].status == Revealing
    ensures Ledger.GetRoundStats(c.m.db, id) == Some(c.stats)
    ensures c.stats.totalPot == m.db.rounds[id].totalPot
    ensures c.stats.pumpPot == m.db.rounds[id].pumpPot && c.stats.dumpPot == m.db.rounds[id].dumpPot
  {
    var db' := Ledger.UpdateRoundStatus(m.db, id, Revealing).db;
    Closed(m.(db := db'), Ledger.GetRoundStats(db', id).value)
  }

  /** Closing the controller's betting round keeps the invariant. */
  lemma CloseBettingKeepsInv(m: Manager, id: Ledger.RoundId)
    requires Inv(m) && FreshCounter(m) && m.currentRound == Some(id) && id < |m.db.rounds|
    ensures Inv(CloseBetting(m, id).m) && FreshCounter(CloseBetting(m, id).m)
  {
    Ledger.UpdateRoundStatusKeepsValid(m.db, id, Revealing);
  }

  datatype Summary = Summary(
    result: Side,
    totalPot: real,
    houseProfit: real,
    winnersPool: real,
    multiplier: real,
    winnerCount: nat)

  datatype Settled = Settled(m: Manager, summary: Summary)

  /** Phase 3: pick the result, pay the winners, complete the round with
      `house_profit = total_pot * HOUSE_EDGE` (whatever the result) and clear
      the controller's round. */
  function Settle(m: Manager, id: Ledger.RoundId, stats: Ledger.RoundStats, he: HouseEdge,
                  coin: Coin, now: real): (s: Settled)
    requires id < |m.db.rounds|
    ensures s.m.currentRound == None && s.m.roundCounter == m.roundCounter
    ensures |s.m.db.rounds| == |m.db.rounds|
    ensures s.m.db.rounds[id].status == Completed && s.m.db.rounds[id].result == Some(s.summary.result)
    ensures s.m.db.rounds[id].houseProfit == stats.totalPot * he == s.summary.houseProfit
    ensures forall j :: 0 <= j < |m.db.rounds| && j != id ==> s.m.db.rounds[j] == m.db.rounds[j]
    ensures s.summary.result == DetermineResult(stats.totalPot, stats.pumpPot, stats.dumpPot, he, coin)
    ensures s.summary.winnersPool + s.summary.houseProfit == stats.totalPot
    ensures var w := if s.summary.result == Pump then stats.pumpPot else stats.dumpPot;
      && (w > 0.0 ==> s.summary.multiplier * w == s.summary.winnersPool)
      && (w <= 0.0 ==> s.summary.multiplier == 0.0)
  {
    var result := DetermineResult(stats.totalPot, stats.pumpPot, stats.dumpPot, he, coin);
    var houseProfit := stats.totalPot * he;
    var d := Ledger.DistributeWinnings(m.db, id, result, he);
    var db' := Ledger.CompleteRound(d.db, id, result, houseProfit, now);
    var winnersPool := stats.totalPot - houseProfit;
    var winningPot := if result == Pump then stats.pumpPot else stats.dumpPot;
    var multiplier := if winningPot > 0.0 then winnersPool / winningPot else 0.0;
    Settled(Manager(db', None, m.roundCounter),
            Summary(result, stats.totalPot, houseProfit, winnersPool, multiplier, d.winners))
  }

  /** Settlement keeps the invariant (with no controller round left). */
  lemma SettleKeepsInv(m: Manager, id: Ledger.RoundId, stats: Ledger.RoundStats, he: HouseEdge,
                       coin: Coin, now: real)
    requires Inv(m) && FreshCounter(m) && id < |m.db.rounds|
    ensures Inv(Settle(m, id, stats, he, coin, now).m) && FreshCounter(Settle(m, id, stats, he, coin, now).m)
  {
    var result := DetermineResult(stats.totalPot, stats.pumpPot, stats.dumpPot, he, coin);
    var d := Ledger.DistributeWinnings(m.db, id, result, he);
    Ledger.DistributeKeepsValid(m.db, id, result, he);
    Ledger.DistributeKeepsBalancesNonNegative(m.db, id, result, he);
    Ledger.DistributeKeepsOneBet(m.db, id, result, he);
    Ledger.CompleteRoundKeepsValid(d.db, id, result, stats.totalPot * he, now);
    var s := Settle(m, id, stats, he, coin, now);
    assert s.summary.result == result;
    assert s.summary.houseProfit == stats.totalPot * he;
    assert s.m.db == Ledger.CompleteRound(d.db, id, s.summary.result, s.summary.houseProfit, now);
  }

  /** Money is conserved: with the pots read at closing, the payouts plus the
      recorded house profit are the whole pot when someone won; when nobody
      backed the result nothing is paid. */
  lemma SettlementBooks(m: Manager, id: Ledger.RoundId, he: HouseEdge, coin: Coin, now: real)
    requires Inv(m) && id < |m.db.rounds|
    ensures var c := CloseBetting(m, id);
      var s := Settle(c.m, id, c.stats, he, coin, now);
      var w := Ledger.WinningPot(m.db.rounds[id], s.summary.result);
      && (w != 0.0 ==> Ledger.PaidOn(s.m.db.bets, id, s.summary.result) + s.summary.houseProfit == c.stats.totalPot)
      && (w == 0.0 ==> s.m.db.bets == m.db.bets && s.summary.winnerCount == 0)
  {
    var c := CloseBetting(m, id);
    Ledger.UpdateRoundStatusKeepsValid(m.db, id, Revealing);
    var result := DetermineResult(c.stats.totalPot, c.stats.pumpPot, c.stats.dumpPot, he, coin);
    if Ledger.WinningPot(m.db.rounds[id], result) != 0.0 {
      Ledger.PayoutsSumToPool(c.m.db, id, result, he);
    }
  }

  // ---------------------------------------------------------------------------
  // A whole round
  // ---------------------------------------------------------------------------

  datatype BetRequest = BetRequest(user: UserKey, side: Side, amount: real)

  /** The bets that arrive during the betting window, in order. */
  function PlaceAll(m: Manager, requests: seq<BetRequest>): (m': Manager)
    ensures m'.currentRound == m.currentRound && m'.roundCounter == m.roundCounter
    ensures |m'.db.rounds| == |m.db.rounds|
    ensures forall j :: 0 <= j < |m.db.rounds| ==>
      m'.db.rounds[j].status == m.db.rounds[j].status && m'.db.rounds[j].roundNumber == m.db.rounds[j].roundNumber
    decreases |requests|
  {
    if |requests| == 0 then m
    else
      var q := requests[0];
      PlaceAll(PlaceBet(m, q.user, q.side, q.amount).m, requests[1..])
  }

  /** Any sequence of bets keeps the invariant and the counter fresh. */
  lemma {:induction false} PlaceAllKeepsInv(m: Manager, requests: seq<BetRequest>)
    requires Inv(m) && FreshCounter(m)
    ensures Inv(PlaceAll(m, requests)) && FreshCounter(PlaceAll(m, requests))
    decreases |requests|
  {
    if |requests| > 0 {
      var q := requests[0];
      PlaceBetKeepsInv(m, q.user, q.side, q.amount);
      PlaceAllKeepsInv(PlaceBet(m, q.user, q.side, q.amount).m, requests[1..]);
    }
  }

  datatype RoundRun = RoundRun(m: Manager, id: Ledger.RoundId, summary: Summary, phases: seq<Status>)

  /** `run_round`: open, take the window's bets, close, settle. `phases`
      records the round's status as read after each phase. */
  function RunRound(m: Manager, openedAt: real, requests: seq<BetRequest>, he: HouseEdge,
                    coin: Coin, settledAt: real): (run: RoundRun)
    ensures run.phases == [Betting, Revealing, Completed]
    ensures run.m.roundCounter == m.roundCounter + 1 && run.m.currentRound == None
    ensures run.id == |m.db.rounds| && |run.m.db.rounds| == |m.db.rounds| + 1
    ensures run.m.db.rounds[run.id].roundNumber == m.roundCounter
  {
    var o := OpenRound(m, openedAt);
    var afterBetting := o.m.db.rounds[o.id].status;
    var m1 := PlaceAll(o.m, requests);
    var c := CloseBetting(m1, o.id);
    var afterClose := c.m.db.rounds[o.id].status;
    var s := Settle(c.m, o.id, c.stats, he, coin, settledAt);
    var afterSettle := s.m.db.rounds[o.id].status;
    RoundRun(s.m, o.id, s.summary, [afterBetting, afterClose, afterSettle])
  }

  /** A whole round keeps the controller's invariant and never reuses a
      round number. */
  lemma RunRoundKeepsInv(m: Manager, openedAt: real, requests: seq<BetRequest>, he: HouseEdge,
                         coin: Coin, settledAt: real)
    requires Inv(m) && FreshCounter(m)
    ensures var run := RunRound(m, openedAt, requests, he, coin, settledAt);
      Inv(run.m) && FreshCounter(run.m)
  {
    var o := OpenRound(m, openedAt);
    OpenRoundKeepsInv(m, openedAt);
    var m1 := PlaceAll(o.m, requests);
    PlaceAllKeepsInv(o.m, requests);
    assert m1.currentRound == Some(o.id);
    CloseBettingKeepsInv(m1, o.id);
    var c := CloseBetting(m1, o.id);
    SettleKeepsInv(c.m, o.id, c.stats, he, coin, settledAt);
  }

  // ---------------------------------------------------------------------------
  // Read-only views
  // ---------------------------------------------------------------------------

  /** The dictionary `get_current_round_info` returns. `stats` is `None`
      when `get_round_stats` found no row and returned `{}`: the merged
      dictionary then lacks the pot keys, and reading them raises. */
  datatype RoundInfo = RoundInfo(
    roundNumber: int,
    roundId: Ledger.RoundId,
    status: Status,
    timeRemaining: nat,
    stats: Option<Ledger.RoundStats>)

  /** `get_current_round_info`: absent without a controller round or a
      current ledger round; the countdown runs only while betting. */
  function GetCurrentRoundInfo(m: Manager, now: real): (info: Option<RoundInfo>)
    ensures info.Some? <==> m.currentRound.Some? && Ledger.LatestActive(m.db.rounds).Some?
    ensures info.Some? ==> info.value.roundId == Ledger.LatestActive(m.db.rounds).value
    ensures info.Some? ==> info.value.status == m.db.rounds[info.value.roundId].status && IsActive(info.value.status)
    ensures info.Some? ==> info.value.roundNumber == m.db.rounds[info.value.roundId].roundNumber
    ensures info.Some? && info.value.status != Betting ==> info.value.timeRemaining == 0
    ensures info.Some? && info.value.status == Betting ==>
      var left := m.db.rounds[info.value.roundId].bettingEndsAt - now;
      && (info.value.timeRemaining == 0 <==> left < 1.0)
      && (info.value.timeRemaining > 0 ==> info.value.timeRemaining as real <= left < info.value.timeRemaining as real + 1.0)
    ensures info.Some? ==> info.value.stats == Ledger.GetRoundStats(m.db, m.currentRound.value)
  {
    if m.currentRound.None? then None
    else
      match Ledger.LatestActive(m.db.rounds)
      case None => None
      case Some(id) =>
        var rd := m.db.rounds[id];
        var left := if rd.status == Betting then TimeRemaining(rd.bettingEndsAt, now) else 0;
        Some(RoundInfo(rd.roundNumber, id, rd.status, left, Ledger.GetRoundStats(m.db, m.currentRound.value)))
  }

  datatype UserBet = UserBet(db: Ledger.Db, bet: Option<Ledger.Bet>)

  /** `get_user_current_bet`: the user's bet in the controller's round
      (fetching the user may create its row). */
  function GetUserCurrentBet(m: Manager, key: UserKey): (u: UserBet)
    ensures m.currentRound.None? ==> u == UserBet(m.db, None)
    ensures m.currentRound.Some? ==> u.db.users == Ledger.GetOrCreateUser(m.db.users, key, None, None).users
    ensures u.db.rounds == m.db.rounds && u.db.bets == m.db.bets
    ensures u.bet.Some? ==> (m.currentRound.Some? && u.bet.value in m.db.bets
      && u.bet.value.user == key && u.bet.value.round == m.currentRound.value)
    ensures m.currentRound.Some? && u.bet.None? ==>
      forall j :: 0 <= j < |m.db.bets| ==> !Ledger.Places(m.db.bets[j], key, m.currentRound.value)
  {
    if m.currentRound.None? then UserBet(m.db, None)
    else
      var f := Ledger.GetOrCreateUser(m.db.users, key, None, None);
      UserBet(m.db.(users := f.users), Ledger.GetUserRoundBet(m.db.bets, key, m.currentRound.value))
  }
}

=== FILE: ledger.dfy ===
/** The persistent ledger of bot/services/database.py: the users, rounds and
    bets tables, with one pure state transformer per database method. Every
    method is one atomic transaction, so each becomes a function from the old
    tables to the new ones.

    Row ids: a round's id is its position in `rounds` and a bet's id its
    position in `bets`; a user row is keyed by its Telegram id. */
module Ledger {
  import opened Wrappers
  import opened Domain

  datatype User = User(
    username: Option<string>,
    firstName: Option<string>,
    balance: real,
    totalWagered: real,
    totalWon: real,
    gamesPlayed: int,
    wins: int,
    losses: int)

  type RoundId = nat

  datatype Round = Round(
    roundNumber: int,
    status: Status,
    bettingEndsAt: real,
    totalPot: real,
    pumpPot: real,
    dumpPot: real,
    participants: int,
    result: Option<Side>,
    houseProfit: real,
    endedAt: Option<real>)

  /** A bet row; `isWinner` starts false and `payout` starts at 0 (SQL NULL,
      which every reader coalesces to 0). */
  datatype Bet = Bet(
    user: UserKey,
    round: RoundId,
    side: Side,
    amount: real,
    isWinner: bool,
    payout: real)

  datatype Db = Db(users: map<UserKey, User>, rounds: seq<Round>, bets: seq<Bet>)

  // ---------------------------------------------------------------------------
  // Aggregates over the bets table (each recurses on the last row, so that an
  // INSERT is one unfolding away).
  // ---------------------------------------------------------------------------

  /** Sum of the stakes placed in round `r`. */
  function Wagered(bets: seq<Bet>, r: RoundId): real
  {
    if |bets| == 0 then 0.0
    else
      var last := bets[|bets| - 1];
      Wagered(bets[..|bets| - 1], r) + (if last.round == r then last.amount else 0.0)
  }

  /** Sum of the stakes placed in round `r` on side `s`. */
  function WageredOn(bets: seq<Bet>, r: RoundId, s: Side): real
  {
    if |bets| == 0 then 0.0
    else
      var last := bets[|bets| - 1];
      WageredOn(bets[..|bets| - 1], r, s) + (if last.round == r && last.side == s then last.amount else 0.0)
  }

  /** Number of bets placed in round `r`. */
  function BetsIn(bets: seq<Bet>, r: RoundId): nat
  {
    if |bets| == 0 then 0
    else BetsIn(bets[..|bets| - 1], r) + (if bets[|bets| - 1].round == r then 1 else 0)
  }

  /** Number of bets placed in round `r` on side `s`. */
  function BetsOn(bets: seq<Bet>, r: RoundId, s: Side): nat
  {
    if |bets| == 0 then 0
    else
      var last := bets[|bets| - 1];
      BetsOn(bets[..|bets| - 1], r, s) + (if last.round == r && last.side == s then 1 else 0)
  }

  /** Sum of the payouts recorded on the bets of round `r` on side `s`. */
  function PaidOn(bets: seq<Bet>, r: RoundId, s: Side): real
  {
    if |bets| == 0 then 0.0
    else
      var last := bets[|bets| - 1];
      PaidOn(bets[..|bets| - 1], r, s) + (if last.round == r && last.side == s then last.payout else 0.0)
  }

  // ---------------------------------------------------------------------------
  // Table invariants
  // ---------------------------------------------------------------------------

  predicate AmountsNonNegative(bets: seq<Bet>) {
    forall i :: 0 <= i < |bets| ==> bets[i].amount >= 0.0
  }

  predicate BetsReferenceRounds(db: Db) {
    forall i :: 0 <= i < |db.bets| ==> db.bets[i].round < |db.rounds|
  }

  /** The round row's aggregate columns agree with its bet rows. */
  predicate PotsMatchAt(db: Db, r: RoundId)
    requires r < |db.rounds|
  {
    var rd := db.rounds[r];
    && rd.totalPot == Wagered(db.bets, r)
    && rd.pumpPot == WageredOn(db.bets, r, Pump)
    && rd.dumpPot == WageredOn(db.bets, r, Dump)
    && rd.participants == BetsIn(db.bets, r)
  }

  predicate PotsMatch(db: Db) {
    forall r: RoundId :: r < |db.rounds| ==> PotsMatchAt(db, r)
  }

  /** The ledger's consistency invariant. */
  predicate Valid(db: Db) {
    AmountsNonNegative(db.bets) && BetsReferenceRounds(db) && PotsMatch(db)
  }

  /** At most one bet row per (user, round) pair. The database does not
      enforce it; the callers' duplicate check does. */
  predicate OneBetPerUserRound(bets: seq<Bet>) {
    forall i, j :: 0 <= i < j < |bets| ==> bets[i].user != bets[j].user || bets[i].round != bets[j].round
  }

  predicate BalancesNonNegative(users: map<UserKey, User>) {
    forall k :: k in users ==> users[k].balance >= 0.0
  }

  /** Consistency depends on the rounds and bets tables only. */
  lemma ValidFollowsTables(a: Db, b: Db)
    requires Valid(a) && a.rounds == b.rounds && a.bets == b.bets
    ensures Valid(b)
  {
    forall r: RoundId | r < |b.rounds|
      ensures PotsMatchAt(b, r)
    {
      assert PotsMatchAt(a, r);
    }
  }

  // ---------------------------------------------------------------------------
  // Aggregate lemmas
  // ---------------------------------------------------------------------------

  /** The total stake of a round is the PUMP stake plus the DUMP stake. */
  lemma {:induction false} WageredSplits(bets: seq<Bet>, r: RoundId)
    ensures Wagered(bets, r) == WageredOn(bets, r, Pump) + WageredOn(bets, r, Dump)
  {
    if |bets| > 0 {
      WageredSplits(bets[..|bets| - 1], r);
    }
  }

  /** The participant count of a round is the PUMP count plus the DUMP count. */
  lemma {:induction false} BetsInSplits(bets: seq<Bet>, r: RoundId)
    ensures BetsIn(bets, r) == BetsOn(bets, r, Pump) + BetsOn(bets, r, Dump)
  {
    if |bets| > 0 {
      BetsInSplits(bets[..|bets| - 1], r);
    }
  }

  lemma {:induction false} WageredOnNonNegative(bets: seq<Bet>, r: RoundId, s: Side)
    requires AmountsNonNegative(bets)
    ensures WageredOn(bets, r, s) >= 0.0
  {
    if |bets| > 0 {
      WageredOnNonNegative(bets[..|bets| - 1], r, s);
    }
  }

  /** No bet of round `r` at all means nothing staked and nobody counted. */
  lemma {:induction false} NoBetsNoStake(bets: seq<Bet>, r: RoundId)
    requires forall i :: 0 <= i < |bets| ==> bets[i].round != r
    ensures Wagered(bets, r) == 0.0 && BetsIn(bets, r) == 0
    ensures WageredOn(bets, r, Pump) == 0.0 && WageredOn(bets, r, Dump) == 0.0
  {
    if |bets| > 0 {
      NoBetsNoStake(bets[..|bets| - 1], r);
    }
  }

  /** Two bet tables that agree row by row on who staked what where have
      the same aggregates (payout and winner flags do not matter). */
  lemma {:induction false} SameStakesSameAggregates(a: seq<Bet>, b: seq<Bet>, r: RoundId)
    requires |a| == |b|
    requires forall i :: 0 <= i < |a| ==>
      a[i].round == b[i].round && a[i].side == b[i].side && a[i].amount == b[i].amount
    ensures Wagered(a, r) == Wagered(b, r)
    ensures WageredOn(a, r, Pump) == WageredOn(b, r, Pump)
    ensures WageredOn(a, r, Dump) == WageredOn(b, r, Dump)
    ensures BetsIn(a, r) == BetsIn(b, r)
    ensures BetsOn(a, r, Pump) == BetsOn(b, r, Pump)
    ensures BetsOn(a, r, Dump) == BetsOn(b, r, Dump)
  {
    if |a| > 0 {
      SameStakesSameAggregates(a[..|a| - 1], b[..|b| - 1], r);
    }
  }

  /** Headline pot identity: `total_pot == pump_pot + dump_pot == Σ bet.amount`. */
  lemma PotIdentity(db: Db, r: RoundId)
    requires Valid(db) && r < |db.rounds|
    ensures db.rounds[r].totalPot == db.rounds[r].pumpPot + db.rounds[r].dumpPot
    ensures db.rounds[r].totalPot == Wagered(db.bets, r)
    ensures db.rounds[r].pumpPot >= 0.0 && db.rounds[r].dumpPot >= 0.0
  {
    assert PotsMatchAt(db, r);
    WageredSplits(db.bets, r);
    WageredOnNonNegative(db.bets, r, Pump);
    WageredOnNonNegative(db.bets, r, Dump);
  }

  // ---------------------------------------------------------------------------
  // Users
  // ---------------------------------------------------------------------------

  function NewUser(username: Option<string>, firstName: Option<string>): User {
    User(username, firstName, STARTING_BALANCE, 0.0, 0.0, 0, 0, 0)
  }

  datatype Fetched = Fetched(users: map<UserKey, User>, user: User)

  /** `get_or_create_user`: returns the existing row as it was read (before
      the name columns are overwritten with the given names), or inserts and
      returns a fresh row with the starting balance. */
  function GetOrCreateUser(users: map<UserKey, User>, key: UserKey,
                           username: Option<string>, firstName: Option<string>): (f: Fetched)
    ensures f.users.Keys == users.Keys + {key}
    ensures forall k :: k in users && k != key ==> f.users[k] == users[k]
    ensures f.users[key].username == username && f.users[key].firstName == firstName
    ensures key in users ==> f.user == users[key]
    ensures key in users ==> f.users[key] == users[key].(username := username, firstName := firstName)
    ensures key !in users ==> f.users[key] == f.user
    ensures key !in users ==>
      && f.user.balance == STARTING_BALANCE
      && f.user.totalWagered == 0.0 && f.user.totalWon == 0.0
      && f.user.gamesPlayed == 0 && f.user.wins == 0 && f.user.losses == 0
  {
    if key in users then
      var u := users[key];
      if username != u.username || firstName != u.firstName then
        Fetched(users[key := u.(username := username, firstName := firstName)], u)
      else
        Fetched(users, u)
    else
      var u := NewUser(username, firstName);
      Fetched(users[key := u], u)
  }

  /** Fetching a user never changes any balance and never loses a user. */
  lemma GetOrCreateKeepsBalances(users: map<UserKey, User>, key: UserKey,
                                 username: Option<string>, firstName: Option<string>)
    requires BalancesNonNegative(users)
    ensures var f := GetOrCreateUser(users, key, username, firstName);
      && BalancesNonNegative(f.users)
      && f.user.balance == f.users[key].balance
      && forall k :: k in users ==> f.users[k].balance == users[k].balance
  {
  }

  // ---------------------------------------------------------------------------
  // Rounds
  // ---------------------------------------------------------------------------

  datatype Created = Created(db: Db, id: RoundId)

  /** `create_round`: a new round row in status betting whose deadline is
      `BETTING_PHASE` seconds after `now`; pots and counts start at zero. */
  function CreateRound(db: Db, roundNumber: int, now: real): (c: Created)
    ensures c.id == |db.rounds| && |c.db.rounds| == |db.rounds| + 1
    ensures c.db.rounds[..c.id] == db.rounds
    ensures c.db.users == db.users && c.db.bets == db.bets
    ensures var rd := c.db.rounds[c.id];
      && rd.roundNumber == roundNumber && rd.status == Betting
      && rd.bettingEndsAt == now + BETTING_PHASE as real
      && rd.totalPot == 0.0 && rd.pumpPot == 0.0 && rd.dumpPot == 0.0 && rd.participants == 0
      && rd.result == None
  {
    var rd := Round(roundNumber, Betting, now + BETTING_PHASE as real, 0.0, 0.0, 0.0, 0, None, 0.0, None);
    Created(db.(rounds := db.rounds + [rd]), |db.rounds|)
  }

  /** `get_current_round`: the highest-id round whose status is betting or
      revealing, if any. */
  function LatestActive(rounds: seq<Round>): (r: Option<RoundId>)
    ensures r.Some? ==> r.value < |rounds| && IsActive(rounds[r.value].status)
    ensures r.Some? ==> forall j :: r.value < j < |rounds| ==> !IsActive(rounds[j].status)
    ensures r.None? <==> forall j :: 0 <= j < |rounds| ==> !IsActive(rounds[j].status)
  {
    if |rounds| == 0 then None
    else if IsActive(rounds[|rounds| - 1].status) then Some(|rounds| - 1)
    else LatestActive(rounds[..|rounds| - 1])
  }

  datatype Updated = Updated(db: Db, ok: bool)

  /** `update_round_status`: reports whether a row was updated. */
  function UpdateRoundStatus(db: Db, id: RoundId, status: Status): (u: Updated)
    ensures u.ok <==> id < |db.rounds|
    ensures u.db.users == db.users && u.db.bets == db.bets
    ensures |u.db.rounds| == |db.rounds|
    ensures u.ok ==> u.db.rounds[id] == db.rounds[id].(status := status)
    ensures forall j :: 0 <= j < |db.rounds| && j != id ==> u.db.rounds[j] == db.rounds[j]
  {
    if id < |db.rounds| then
      Updated(db.(rounds := db.rounds[id := db.rounds[id].(status := status)]), true)
    else
      Updated(db, false)
  }

  /** A round-status write leaves every pot and bet as it was. */
  lemma UpdateRoundStatusKeepsValid(db: Db, id: RoundId, status: Status)
    requires Valid(db)
    ensures Valid(UpdateRoundStatus(db, id, status).db)
  {
    var db' := UpdateRoundStatus(db, id, status).db;
    forall r: RoundId | r < |db'.rounds|
      ensures PotsMatchAt(db', r)
    {
      assert PotsMatchAt(db, r);
    }
  }

  datatype RoundStats = RoundStats(
    totalPot: real,
    pumpPot: real,
    dumpPot: real,
    participants: int,
    pumpPercentage: real,
    dumpPercentage: real)

  /** `get_round_stats` (SQL ROUND is not modelled): the percentages are 0
      for an empty pot. */
  function GetRoundStats(db: Db, id: RoundId): (s: Option<RoundStats>)
    ensures s.Some? <==> id < |db.rounds|
    ensures s.Some? ==> var rd := db.rounds[id];
      && s.value.totalPot == rd.totalPot && s.value.pumpPot == rd.pumpPot
      && s.value.dumpPot == rd.dumpPot && s.value.participants == rd.participants
      && (rd.totalPot <= 0.0 ==> s.value.pumpPercentage == 0.0 && s.value.dumpPercentage == 0.0)
      && (rd.totalPot > 0.0 ==> s.value.pumpPercentage * rd.totalPot == rd.pumpPot * 100.0)
      && (rd.totalPot > 0.0 ==> s.value.dumpPercentage * rd.totalPot == rd.dumpPot * 100.0)
  {
    if id < |db.rounds| then
      var rd := db.rounds[id];
      var pumpPct := if rd.totalPot > 0.0 then rd.pumpPot / rd.totalPot * 100.0 else 0.0;
      var dumpPct := if rd.totalPot > 0.0 then rd.dumpPot / rd.totalPot * 100.0 else 0.0;
      Some(RoundStats(rd.totalPot, rd.pumpPot, rd.dumpPot, rd.participants, pumpPct, dumpPct))
    else
      None
  }

  /** In a consistent ledger the two side percentages of a non-empty pot add
      up to 100 and neither is negative. */
  lemma PercentagesAddUp(db: Db, id: RoundId)
    requires Valid(db) && id < |db.rounds| && db.rounds[id].totalPot > 0.0
    ensures var s := GetRoundStats(db, id).value;
      && s.pumpPercentage + s.dumpPercentage == 100.0
      && 0.0 <= s.pumpPercentage <= 100.0 && 0.0 <= s.dumpPercentage <= 100.0
  {
    PotIdentity(db, id);
    var rd := db.rounds[id];
    var s := GetRoundStats(db, id).value;
    assert s.pumpPercentage == rd.pumpPot / rd.totalPot * 100.0;
    assert s.dumpPercentage == rd.dumpPot / rd.totalPot * 100.0;
    SharesOfWhole(rd.pumpPot, rd.dumpPot, rd.totalPot);
  }

  /** Two non-negative parts of a positive whole are shares in [0, 1] that
      add up to 1. */
  lemma SharesOfWhole(a: real, b: real, t: real)
    requires t > 0.0 && a >= 0.0 && b >= 0.0 && a + b == t
    ensures a / t * 100.0 + b / t * 100.0 == 100.0
    ensures 0.0 <= a / t * 100.0 <= 100.0 && 0.0 <= b / t * 100.0 <= 100.0
  {
    var p := a / t;
    var q := b / t;
    assert p * t == a && q * t == b;
    assert (p + q) * t == t;
    assert p + q == 1.0;
    assert p <= 1.0 by { assert p * t <= 1.0 * t; }
    assert q <= 1.0 by { assert q * t <= 1.0 * t; }
  }

  // ---------------------------------------------------------------------------
  // Bets
  // ---------------------------------------------------------------------------

  /** Whether bet `b` is user `u`'s bet in round `r`. */
  predicate Places(b: Bet, u: UserKey, r: RoundId) {
    b.user == u && b.round == r
  }

  /** Position of the first bet of user `u` in round `r`. */
  function FirstBetIndex(bets: seq<Bet>, u: UserKey, r: RoundId): (k: Option<nat>)
    ensures k.Some? ==> k.value < |bets| && Places(bets[k.value], u, r)
    ensures k.Some? ==> forall j :: 0 <= j < k.value ==> !Places(bets[j], u, r)
    ensures k.None? <==> forall j :: 0 <= j < |bets| ==> !Places(bets[j], u, r)
  {
    if |bets| == 0 then None
    else if Places(bets[0], u, r) then Some(0)
    else
      match FirstBetIndex(bets[1..], u, r)
      case None => None
      case Some(k) => Some(k + 1)
  }

  /** `get_user_round_bet`: the user's bet in the round, if there is one. */
  function GetUserRoundBet(bets: seq<Bet>, u: UserKey, r: RoundId): (b: Option<Bet>)
    ensures b.Some? ==> b.value in bets && Places(b.value, u, r)
    ensures b.None? <==> forall j :: 0 <= j < |bets| ==> !Places(bets[j], u, r)
  {
    match FirstBetIndex(bets, u, r)
    case None => None
    case Some(k) => Some(bets[k])
  }

  /** When bets are unique per (user, round), the bet found is the only one. */
  lemma UniqueBetFound(bets: seq<Bet>, i: nat)
    requires OneBetPerUserRound(bets) && i < |bets|
    ensures FirstBetIndex(bets, bets[i].user, bets[i].round) == Some(i)
  {
  }

  /** The round aggregates after one more stake. */
  function AddStake(rd: Round, side: Side, amount: real): Round {
    rd.(totalPot := rd.totalPot + amount,
        pumpPot := if side == Pump then rd.pumpPot + amount else rd.pumpPot,
        dumpPot := if side == Dump then rd.dumpPot + amount else rd.dumpPot,
        participants := rd.participants + 1)
  }

  /** `place_bet`: inserts the bet row, debits the bettor and adds the stake
      to the round's pots. It checks neither the balance nor duplicates; an
      UPDATE that matches no row changes nothing. (database.py always reports
      success, so no flag is returned.) */
  function PlaceBet(db: Db, u: UserKey, r: RoundId, side: Side, amount: real): (db': Db)
    ensures db'.bets == db.bets + [Bet(u, r, side, amount, false, 0.0)]
    ensures |db'.rounds| == |db.rounds|
    ensures forall j :: 0 <= j < |db.rounds| && j != r ==> db'.rounds[j] == db.rounds[j]
    ensures r < |db.rounds| ==>
      && db'.rounds[r].totalPot == db.rounds[r].totalPot + amount
      && db'.rounds[r].pumpPot == db.rounds[r].pumpPot + (if side == Pump then amount else 0.0)
      && db'.rounds[r].dumpPot == db.rounds[r].dumpPot + (if side == Dump then amount else 0.0)
      && db'.rounds[r].participants == db.rounds[r].participants + 1
      && db'.rounds[r].status == db.rounds[r].status
      && db'.rounds[r].roundNumber == db.rounds[r].roundNumber
      && db'.rounds[r].bettingEndsAt == db.rounds[r].bettingEndsAt
    ensures db'.users.Keys == db.users.Keys
    ensures forall k :: k in db.users && k != u ==> db'.users[k] == db.users[k]
    ensures u in db.users ==>
      db'.users[u] == db.users[u].(balance := db.users[u].balance - amount,
                                   totalWagered := db.users[u].totalWagered + amount)
  {
    var users' :=
      if u in db.users then
        db.users[u := db.users[u].(balance := db.users[u].balance - amount,
                                   totalWagered := db.users[u].totalWagered + amount)]
      else db.users;
    var rounds' := if r < |db.rounds| then db.rounds[r := AddStake(db.rounds[r], side, amount)] else db.rounds;
    Db(users', rounds', db.bets + [Bet(u, r, side, amount, false, 0.0)])
  }

  /** `place_bet` keeps every round's pots equal to the sum of its bets. */
  lemma {:induction false} PlaceBetKeepsValid(db: Db, u: UserKey, r: RoundId, side: Side, amount: real)
    requires Valid(db) && r < |db.rounds| && amount >= 0.0
    ensures Valid(PlaceBet(db, u, r, side, amount))
  {
    var db' := PlaceBet(db, u, r, side, amount);
    assert db'.bets[..|db'.bets| - 1] == db.bets;
    forall q: RoundId | q < |db'.rounds|
      ensures PotsMatchAt(db', q)
    {
      assert PotsMatchAt(db, q);
    }
  }

  /** A bet on a (user, round) pair with no bet yet keeps bets unique. */
  lemma PlaceBetKeepsUnique(db: Db, u: UserKey, r: RoundId, side: Side, amount: real)
    requires OneBetPerUserRound(db.bets)
    requires GetUserRoundBet(db.bets, u, r).None?
    ensures OneBetPerUserRound(PlaceBet(db, u, r, side, amount).bets)
  {
  }

  // ---------------------------------------------------------------------------
  // Settlement
  // ---------------------------------------------------------------------------

  /** A bet of round `r` on side `s` is marked as won with `amount * m`;
      any other bet is left as it is. */
  function Mark(b: Bet, r: RoundId, s: Side, m: real): Bet {
    if b.round == r && b.side == s then b.(isWinner := true, payout := b.amount * m) else b
  }

  /** Marks every bet of round `r` on side `s` as won with `amount * m`. */
  function MarkWinners(bets: seq<Bet>, r: RoundId, s: Side, m: real): (bets': seq<Bet>)
    ensures |bets'| == |bets|
  {
    if |bets| == 0 then []
    else MarkWinners(bets[..|bets| - 1], r, s, m) + [Mark(bets[|bets| - 1], r, s, m)]
  }

  /** Marking acts row by row: row `i` of the result is row `i` marked. */
  lemma {:induction false} MarkedAt(bets: seq<Bet>, r: RoundId, s: Side, m: real, i: nat)
    requires i < |bets|
    ensures MarkWinners(bets, r, s, m)[i] == Mark(bets[i], r, s, m)
    decreases |bets|
  {
    var n := |bets| - 1;
    if i < n {
      MarkedAt(bets[..n], r, s, m, i);
    }
  }

  lemma MarkedEverywhere(bets: seq<Bet>, r: RoundId, s: Side, m: real)
    ensures forall i :: 0 <= i < |bets| ==> MarkWinners(bets, r, s, m)[i] == Mark(bets[i], r, s, m)
  {
    forall i | 0 <= i < |bets|
      ensures MarkWinners(bets, r, s, m)[i] == Mark(bets[i], r, s, m)
    {
      MarkedAt(bets, r, s, m, i);
    }
  }

  /** Whether bet `b` is user `u`'s bet in round `r` on side `s`: the rows
      the balance UPDATE joins with. */
  predicate PlacesOn(b: Bet, u: UserKey, r: RoundId, s: Side) {
    Places(b, u, r) && b.side == s
  }

  /** Position of the first bet of user `u` in round `r` on side `s`. */
  function FirstBetOnIndex(bets: seq<Bet>, u: UserKey, r: RoundId, s: Side): (k: Option<nat>)
    ensures k.Some? ==> k.value < |bets| && PlacesOn(bets[k.value], u, r, s)
    ensures k.Some? ==> forall j :: 0 <= j < k.value ==> !PlacesOn(bets[j], u, r, s)
    ensures k.None? <==> forall j :: 0 <= j < |bets| ==> !PlacesOn(bets[j], u, r, s)
  {
    if |bets| == 0 then None
    else if PlacesOn(bets[0], u, r, s) then Some(0)
    else
      match FirstBetOnIndex(bets[1..], u, r, s)
      case None => None
      case Some(k) => Some(k + 1)
  }

  /** The payout user `u` collects in round `r` when side `s` wins: the
      UPDATE ... FROM joins only the user's bets on `s`, so a bet on the
      other side is never credited. Should there be several bets on `s`,
      PostgreSQL credits one of them once; the model takes the earliest. */
  function WinningPayout(bets: seq<Bet>, u: UserKey, r: RoundId, s: Side): (p: real)
    ensures (forall j :: 0 <= j < |bets| ==> !PlacesOn(bets[j], u, r, s)) ==> p == 0.0
    ensures (exists j :: 0 <= j < |bets| && PlacesOn(bets[j], u, r, s)) ==>
      exists j :: 0 <= j < |bets| && PlacesOn(bets[j], u, r, s) && p == bets[j].payout
  {
    match FirstBetOnIndex(bets, u, r, s)
    case Some(k) => bets[k].payout
    case None => 0.0
  }

  datatype Distributed = Distributed(db: Db, winners: nat)

  /** The side pot of the round that `result` pays out. */
  function WinningPot(rd: Round, result: Side): real {
    if result == Pump then rd.pumpPot else rd.dumpPot
  }

  /** The pot left for winners once the house has taken its cut. */
  function WinnersPool(totalPot: real, he: HouseEdge): real {
    totalPot - totalPot * he
  }

  /** `distribute_winnings`: nothing happens for a missing round or an empty
      winning side; otherwise each winning bet is paid `amount * multiplier`,
      with `multiplier = winners_pool / winning_pot`, each winner's balance
      is credited and the number of winning bets is returned. */
  function DistributeWinnings(db: Db, r: RoundId, result: Side, he: HouseEdge): (d: Distributed)
    ensures r >= |db.rounds| ==> d == Distributed(db, 0)
    ensures r < |db.rounds| && WinningPot(db.rounds[r], result) == 0.0 ==> d == Distributed(db, 0)
    ensures d.db.rounds == db.rounds && |d.db.bets| == |db.bets|
    ensures d.db.users.Keys == db.users.Keys
    ensures r < |db.rounds| && WinningPot(db.rounds[r], result) != 0.0 ==>
      var m := WinnersPool(db.rounds[r].totalPot, he) / WinningPot(db.rounds[r], result);
      && d.winners == BetsOn(db.bets, r, result)
      && (forall i :: 0 <= i < |db.bets| && db.bets[i].round == r && db.bets[i].side == result ==>
            d.db.bets[i] == db.bets[i].(isWinner := true, payout := db.bets[i].amount * m))
      && (forall i :: 0 <= i < |db.bets| && !(db.bets[i].round == r && db.bets[i].side == result) ==>
            d.db.bets[i] == db.bets[i])
      && (forall k :: k in db.users ==>
            d.db.users[k] == db.users[k].(balance := db.users[k].balance + WinningPayout(d.db.bets, k, r, result)))
  {
    if r >= |db.rounds| then Distributed(db, 0)
    else
      var rd := db.rounds[r];
      var winningPot := WinningPot(rd, result);
      if winningPot == 0.0 then Distributed(db, 0)
      else
        var m := WinnersPool(rd.totalPot, he) / winningPot;
        var bets' := MarkWinners(db.bets, r, result, m);
        MarkedEverywhere(db.bets, r, result, m);
        Distributed(Db(CreditWinners(db.users, bets', r, result), db.rounds, bets'), BetsOn(db.bets, r, result))
  }

  /** Each user's balance rises by what they collect from round `r`. */
  function CreditWinners(users: map<UserKey, User>, bets: seq<Bet>, r: RoundId, result: Side): (users': map<UserKey, User>)
    ensures users'.Keys == users.Keys
    ensures forall k :: k in users ==>
      users'[k] == users[k].(balance := users[k].balance + WinningPayout(bets, k, r, result))
  {
    map k | k in users :: users[k].(balance := users[k].balance + WinningPayout(bets, k, r, result))
  }

  /** Settling never changes who bet on which round, so a ledger with one bet
      per user and round keeps that property. */
  lemma DistributeKeepsOneBet(db: Db, r: RoundId, result: Side, he: HouseEdge)
    requires OneBetPerUserRound(db.bets)
    ensures OneBetPerUserRound(DistributeWinnings(db, r, result, he).db.bets)
  {
    var d := DistributeWinnings(db, r, result, he);
    forall i, j | 0 <= i < j < |d.db.bets|
      ensures d.db.bets[i].user != d.db.bets[j].user || d.db.bets[i].round != d.db.bets[j].round
    {
      assert Places(d.db.bets[i], db.bets[i].user, db.bets[i].round);
      assert Places(d.db.bets[j], db.bets[j].user, db.bets[j].round);
    }
  }

  /** The stakes of round `r` on side `s`, each scaled by `m`, summed. */
  function ScaledStakes(bets: seq<Bet>, r: RoundId, s: Side, m: real): real
  {
    if |bets| == 0 then 0.0
    else
      var last := bets[|bets| - 1];
      ScaledStakes(bets[..|bets| - 1], r, s, m) + (if last.round == r && last.side == s then last.amount * m else 0.0)
  }

  /** After marking, the payouts on the winning side sum to `m` times its stake. */
  lemma MarkedPayoutsSum(bets: seq<Bet>, r: RoundId, s: Side, m: real)
    ensures PaidOn(MarkWinners(bets, r, s, m), r, s) == WageredOn(bets, r, s) * m
  {
    MarkedPaysScaled(bets, r, s, m);
    ScaledStakesFactor(bets, r, s, m);
  }

  /** Each marked row pays its own stake times `m`. */
  lemma {:induction false} MarkedPaysScaled(bets: seq<Bet>, r: RoundId, s: Side, m: real)
    ensures PaidOn(MarkWinners(bets, r, s, m), r, s) == ScaledStakes(bets, r, s, m)
  {
    if |bets| > 0 {
      var n := |bets| - 1;
      MarkedPaysScaled(bets[..n], r, s, m);
      var before := MarkWinners(bets[..n], r, s, m);
      var marked := MarkWinners(bets, r, s, m);
      assert marked == before + [Mark(bets[n], r, s, m)];
      assert marked[..n] == before;
    }
  }

  /** Scaling each stake by `m` scales their sum by `m`. */
  lemma {:induction false} ScaledStakesFactor(bets: seq<Bet>, r: RoundId, s: Side, m: real)
    ensures ScaledStakes(bets, r, s, m) == WageredOn(bets, r, s) * m
  {
    if |bets| > 0 {
      var n := |bets| - 1;
      var a := bets[n];
      ScaledStakesFactor(bets[..n], r, s, m);
      var scaled := ScaledStakes(bets, r, s, m);
      var scaledBefore := ScaledStakes(bets[..n], r, s, m);
      var w := WageredOn(bets[..n], r, s);
      var total := WageredOn(bets, r, s);
      if a.round == r && a.side == s {
        assert scaled == scaledBefore + a.amount * m;
        assert total == w + a.amount;
        ScaleSum(scaled, scaledBefore, total, w, a.amount, m);
      } else {
        assert scaled == scaledBefore;
        assert total == w;
        assert total * m == w * m;
      }
      assert scaled == total * m;
    }
  }

  /** The arithmetic of one induction step: a running sum scaled by `m`. */
  lemma ScaleSum(paid: real, paidBefore: real, total: real, w: real, stake: real, m: real)
    requires paid == paidBefore + stake * m && paidBefore == w * m && total == w + stake
    ensures paid == total * m
  {
  }

  /** Headline payout bound: the winners' payouts add up to exactly the
      winners' pool, which is at most the total pot (the house keeps the
      rest). */
  lemma PayoutsSumToPool(db: Db, r: RoundId, result: Side, he: HouseEdge)
    requires Valid(db) && r < |db.rounds| && WinningPot(db.rounds[r], result) != 0.0
    ensures var d := DistributeWinnings(db, r, result, he);
      && PaidOn(d.db.bets, r, result) == WinnersPool(db.rounds[r].totalPot, he)
      && 0.0 <= WinnersPool(db.rounds[r].totalPot, he) <= db.rounds[r].totalPot
  {
    var rd := db.rounds[r];
    PotIdentity(db, r);
    assert PotsMatchAt(db, r);
    var w := WinningPot(rd, result);
    var pool := WinnersPool(rd.totalPot, he);
    assert WageredOn(db.bets, r, result) * (pool / w) == pool by {
      assert w == WageredOn(db.bets, r, result);
      DivideBack(pool, w);
    }
    WinnersShareThePool(db.bets, r, result, pool / w, pool);
    PoolBounds(rd.totalPot, he);
  }

  /** Paying every winning bet `m` per unit staked hands out exactly `pool`
      when the winning stake times `m` is `pool`. */
  lemma WinnersShareThePool(bets: seq<Bet>, r: RoundId, s: Side, m: real, pool: real)
    requires WageredOn(bets, r, s) * m == pool
    ensures PaidOn(MarkWinners(bets, r, s, m), r, s) == pool
  {
    MarkedPayoutsSum(bets, r, s, m);
  }

  lemma DivideBack(x: real, y: real)
    requires y != 0.0
    ensures y * (x / y) == x
  {
  }

  /** The house cut of a non-negative pot leaves between nothing and all of it. */
  lemma PoolBounds(totalPot: real, he: HouseEdge)
    requires totalPot >= 0.0
    ensures 0.0 <= WinnersPool(totalPot, he) <= totalPot
  {
    var keep := 1.0 - he;
    assert keep > 0.0;
    assert totalPot * he >= 0.0;
    assert totalPot - totalPot * he == totalPot * keep;
    assert totalPot * keep >= 0.0;
  }

  /** Settlement keeps the pots consistent: it changes only winner flags and
      payouts, never stakes. */
  lemma DistributeKeepsValid(db: Db, r: RoundId, result: Side, he: HouseEdge)
    requires Valid(db)
    ensures Valid(DistributeWinnings(db, r, result, he).db)
  {
    var d := DistributeWinnings(db, r, result, he);
    forall q: RoundId | q < |d.db.rounds|
      ensures PotsMatchAt(d.db, q)
    {
      assert PotsMatchAt(db, q);
      SameStakesSameAggregates(db.bets, d.db.bets, q);
    }
  }

  /** Each winning bettor's balance rises by exactly their payout, each
      other user's balance is unchanged. */
  lemma WinnersCredited(db: Db, r: RoundId, result: Side, he: HouseEdge)
    requires OneBetPerUserRound(db.bets)
    requires r < |db.rounds| && WinningPot(db.rounds[r], result) != 0.0
    ensures var d := DistributeWinnings(db, r, result, he);
      && (forall i :: 0 <= i < |db.bets| && db.bets[i].round == r && db.bets[i].side == result && db.bets[i].user in db.users ==>
            d.db.users[db.bets[i].user].balance == db.users[db.bets[i].user].balance + d.db.bets[i].payout)
      && (forall k :: k in db.users && (forall i :: 0 <= i < |db.bets| ==> !(Places(db.bets[i], k, r) && db.bets[i].side == result)) ==>
            d.db.users[k].balance == db.users[k].balance)
  {
    var d := DistributeWinnings(db, r, result, he);
    var rd := db.rounds[r];
    var m := WinnersPool(rd.totalPot, he) / WinningPot(rd, result);
    MarkedEverywhere(db.bets, r, result, m);
    assert d.db.bets == MarkWinners(db.bets, r, result, m);
    assert d.db.users == CreditWinners(db.users, d.db.bets, r, result);
    CreditFollowsOwnBet(db.users, db.bets, d.db.bets, r, result);
  }

  /** Crediting by the winning-side join, over bets that only marking has
      changed: each winning bettor gains their own bet's payout, and a user
      without a winning-side bet gains nothing. */
  lemma CreditFollowsOwnBet(users: map<UserKey, User>, bets: seq<Bet>, bets': seq<Bet>, r: RoundId, result: Side)
    requires OneBetPerUserRound(bets) && |bets'| == |bets|
    requires forall i :: 0 <= i < |bets| ==>
      bets'[i].user == bets[i].user && bets'[i].round == bets[i].round && bets'[i].side == bets[i].side
    ensures var users' := CreditWinners(users, bets', r, result);
      && (forall i :: 0 <= i < |bets| && bets[i].round == r && bets[i].side == result && bets[i].user in users ==>
            users'[bets[i].user].balance == users[bets[i].user].balance + bets'[i].payout)
      && (forall k :: k in users && (forall i :: 0 <= i < |bets| ==> !(Places(bets[i], k, r) && bets[i].side == result)) ==>
            users'[k].balance == users[k].balance)
  {
    assert OneBetPerUserRound(bets') by {
      forall i, j | 0 <= i < j < |bets'|
        ensures bets'[i].user != bets'[j].user || bets'[i].round != bets'[j].round
      {
        assert bets[i].user != bets[j].user || bets[i].round != bets[j].round;
      }
    }
    forall i | 0 <= i < |bets| && bets[i].round == r && bets[i].side == result && bets[i].user in users
      ensures CreditWinners(users, bets', r, result)[bets[i].user].balance == users[bets[i].user].balance + bets'[i].payout
    {
      UniqueWinningBet(bets', i, result);
    }
    forall k | k in users && (forall i :: 0 <= i < |bets| ==> !(Places(bets[i], k, r) && bets[i].side == result))
      ensures CreditWinners(users, bets', r, result)[k].balance == users[k].balance
    {
      forall j | 0 <= j < |bets'|
        ensures !PlacesOn(bets'[j], k, r, result)
      {
        assert !(Places(bets[j], k, r) && bets[j].side == result);
      }
    }
  }

  /** With one bet per user and round, the payout credited to a bettor on
      the winning side is that of their own bet. */
  lemma UniqueWinningBet(bets: seq<Bet>, i: nat, s: Side)
    requires OneBetPerUserRound(bets) && i < |bets| && bets[i].side == s
    ensures WinningPayout(bets, bets[i].user, bets[i].round, s) == bets[i].payout
  {
    var k := FirstBetOnIndex(bets, bets[i].user, bets[i].round, s);
    assert PlacesOn(bets[i], bets[i].user, bets[i].round, s);
    assert k.Some? && k.value <= i;
  }

  /** A user's winnings are non-negative when every winning payout is. */
  lemma WinningPayoutNonNegative(bets: seq<Bet>, u: UserKey, r: RoundId, s: Side)
    requires forall i :: 0 <= i < |bets| && bets[i].round == r && bets[i].side == s ==> bets[i].payout >= 0.0
    ensures WinningPayout(bets, u, r, s) >= 0.0
  {
    match FirstBetOnIndex(bets, u, r, s)
    case None =>
    case Some(j) =>
  }

  /** Settlement never makes a balance negative: payouts are non-negative. */
  lemma DistributeKeepsBalancesNonNegative(db: Db, r: RoundId, result: Side, he: HouseEdge)
    requires Valid(db) && BalancesNonNegative(db.users)
    ensures BalancesNonNegative(DistributeWinnings(db, r, result, he).db.users)
  {
    var d := DistributeWinnings(db, r, result, he);
    if r < |db.rounds| && WinningPot(db.rounds[r], result) != 0.0 {
      var rd := db.rounds[r];
      PotIdentity(db, r);
      PoolBounds(rd.totalPot, he);
      var w := WinningPot(rd, result);
      var m := WinnersPool(rd.totalPot, he) / w;
      assert w > 0.0;
      assert m >= 0.0;
      forall i | 0 <= i < |d.db.bets| && d.db.bets[i].round == r && d.db.bets[i].side == result
        ensures d.db.bets[i].payout >= 0.0
      {
        assert d.db.bets[i].payout == db.bets[i].amount * m;
      }
      forall k | k in d.db.users
        ensures d.db.users[k].balance >= 0.0
      {
        WinningPayoutNonNegative(d.db.bets, k, r, result);
      }
    }
  }

  /** Per-user statistics update of `complete_round` for one bet row. */
  function Tally(u: User, b: Option<Bet>): User {
    match b
    case None => u
    case Some(bet) =>
      u.(gamesPlayed := u.gamesPlayed + 1,
         wins := u.wins + (if bet.isWinner then 1 else 0),
         losses := u.losses + (if bet.isWinner then 0 else 1),
         totalWon := u.totalWon + bet.payout)
  }

  /** `complete_round`: closes the round with its result and house profit and
      updates the statistics of every user with a bet in it. (database.py
      always reports success, so no flag is returned.) */
  function CompleteRound(db: Db, r: RoundId, result: Side, houseProfit: real, now: real): (db': Db)
    ensures db'.bets == db.bets && |db'.rounds| == |db.rounds|
    ensures forall j :: 0 <= j < |db.rounds| && j != r ==> db'.rounds[j] == db.rounds[j]
    ensures r < |db.rounds| ==>
      db'.rounds[r] == db.rounds[r].(status := Completed, result := Some(result),
                                     houseProfit := houseProfit, endedAt := Some(now))
    ensures db'.users.Keys == db.users.Keys
    ensures forall k :: k in db.users ==> db'.users[k].balance == db.users[k].balance
    ensures forall k :: k in db.users && GetUserRoundBet(db.bets, k, r).None? ==> db'.users[k] == db.users[k]
    ensures forall k :: k in db.users && GetUserRoundBet(db.bets, k, r).Some? ==>
      var b := GetUserRoundBet(db.bets, k, r).value;
      && db'.users[k].gamesPlayed == db.users[k].gamesPlayed + 1
      && db'.users[k].wins + db'.users[k].losses == db.users[k].wins + db.users[k].losses + 1
      && (db'.users[k].wins == db.users[k].wins + 1 <==> b.isWinner)
      && db'.users[k].wins == db.users[k].wins + (if b.isWinner then 1 else 0)
      && db'.users[k].losses == db.users[k].losses + (if b.isWinner then 0 else 1)
      && db'.users[k].totalWon == db.users[k].totalWon + b.payout
      && db'.users[k].totalWagered == db.users[k].totalWagered
      && db'.users[k].username == db.users[k].username
      && db'.users[k].firstName == db.users[k].firstName
  {
    var rounds' :=
      if r < |db.rounds| then
        db.rounds[r := db.rounds[r].(status := Completed, result := Some(result),
                                     houseProfit := houseProfit, endedAt := Some(now))]
      else db.rounds;
    var users' := map k | k in db.users :: Tally(db.users[k], GetUserRoundBet(db.bets, k, r));
    Db(users', rounds', db.bets)
  }

  /** Completing a round keeps the ledger consistent. */
  lemma CompleteRoundKeepsValid(db: Db, r: RoundId, result: Side, houseProfit: real, now: real)
    requires Valid(db)
    ensures Valid(CompleteRound(db, r, result, houseProfit, now))
  {
    var db' := CompleteRound(db, r, result, houseProfit, now);
    forall q: RoundId | q < |db'.rounds|
      ensures PotsMatchAt(db', q)
    {
      assert PotsMatchAt(db, q);
    }
  }
}

=== FILE: observer.dfy ===
/** The web chart's observer of backend/websocket_server.py: a small game-state
    record the bot overwrites at each phase change, the set of connected
    clients, and the reply to a client's request. Sending and broadcasting are
    transport; an update here yields the new server and the message it would
    broadcast to every client in `clients`. */
module Observer {
  import opened Wrappers
  import opened Domain

  /** A connected websocket, by identity. */
  type ClientId = int

  /** The most recent results are kept, newest first, up to this many. */
  const RECENT_CAPACITY: nat := 10

  /** One entry of `recentResults`. */
  datatype Entry = Entry(round: int, result: Side, pot: real, winners: int)

  /** The broadcast game state; `phase` only ever takes the values
      waiting, betting and revealing. */
  datatype GameState = GameState(
    round: int,
    phase: Status,
    timeLeft: int,
    pumpPot: real,
    dumpPot: real,
    playerCount: int,
    recentResults: seq<Entry>)

  datatype Server = Server(clients: set<ClientId>, state: GameState)

  /** The messages the server sends. */
  datatype Message =
    | GameStateMsg(data: GameState)
    | Pong
    | RoundStartedMsg(data: GameState)
    | BetPlacedMsg(betType: string, amount: real, pumpPot: real, dumpPot: real, playerCount: int)
    | BettingClosedMsg(data: GameState)
    | RoundResultMsg(round: int, result: Side, totalPot: real, winnerCount: int, recentResults: seq<Entry>)
    | TimerMsg(timeLeft: int)

  /** An update: the new server and the message broadcast to its clients. */
  datatype Step = Step(server: Server, broadcast: Message)

  /** The state a fresh server starts from. */
  function InitialState(): (g: GameState)
    ensures g.round == 1 && g.phase == Waiting && g.timeLeft == 0
    ensures g.pumpPot == 0.0 && g.dumpPot == 0.0 && g.playerCount == 0
    ensures g.recentResults == []
  {
    GameState(1, Waiting, 0, 0.0, 0.0, 0, [])
  }

  function NewServer(): (s: Server)
    ensures s.clients == {} && s.state == InitialState()
  {
    Server({}, InitialState())
  }

  // ---------------------------------------------------------------------------
  // Client registry and requests
  // ---------------------------------------------------------------------------

  /** A client connects: it joins the registry and is sent the current state. */
  function RegisterClient(s: Server, c: ClientId): (r: (Server, Message))
    ensures r.0.clients == s.clients + {c} && c in r.0.clients
    ensures r.0.state == s.state
    ensures r.1 == GameStateMsg(s.state)
  {
    (Server(s.clients + {c}, s.state), GameStateMsg(s.state))
  }

  /** A client disconnects; discarding an unknown client changes nothing. */
  function UnregisterClient(s: Server, c: ClientId): (s': Server)
    ensures c !in s'.clients
    ensures forall d :: d != c ==> (d in s'.clients <==> d in s.clients)
    ensures s'.state == s.state
    ensures c !in s.clients ==> s' == s
  {
    Server(s.clients - {c}, s.state)
  }

  /** Connecting and then disconnecting a new client leaves the registry as
      it was. */
  lemma RegisterThenUnregister(s: Server, c: ClientId)
    requires c !in s.clients
    ensures UnregisterClient(RegisterClient(s, c).0, c) == s
  {
    assert UnregisterClient(RegisterClient(s, c).0, c).clients == s.clients;
  }

  /** The answer to a client's message, by its `type` field: `ping` is
      answered with a pong, `get_state` with the state, anything else (or no
      type at all) with nothing. The state is never changed. */
  function HandleMessage(s: Server, messageType: Option<string>): (reply: Option<Message>)
    ensures reply == Some(Pong) <==> messageType == Some("ping")
    ensures reply == Some(GameStateMsg(s.state)) <==> messageType == Some("get_state")
    ensures reply.None? <==> messageType != Some("ping") && messageType != Some("get_state")
  {
    match messageType
    case Some(t) =>
      if t == "ping" then Some(Pong)
      else if t == "get_state" then Some(GameStateMsg(s.state))
      else None
    case None => None
  }

  /** What `json.loads` makes of one incoming frame: not JSON at all, JSON
      that is not an object (a list, a string, a number), or an object with
      or without a string `type` field. */
  datatype Incoming = Malformed | NotObject | Object(messageType: Option<string>)

  /** The server after one frame, the reply sent, and whether the
      connection stays open. */
  datatype Received = Received(server: Server, reply: Option<Message>, open: bool)

  /** One turn of `handle_client`'s loop for client `c`. Invalid JSON is
      logged and skipped. For JSON that is not an object, `data.get` raises
      an AttributeError that neither `except` clause catches, so the loop
      ends and the `finally` unregisters the client. An object goes to
      `handle_message`. */
  function ReceiveFrame(s: Server, c: ClientId, frame: Incoming): (r: Received)
    ensures r.open <==> !frame.NotObject?
    ensures !r.open ==> r.server == UnregisterClient(s, c) && r.reply.None?
    ensures r.open ==> r.server == s
    ensures frame.Malformed? ==> r.reply.None?
    ensures frame.Object? ==> r.reply == HandleMessage(s, frame.messageType)
  {
    match frame
    case Malformed => Received(s, None, true)
    case NotObject => Received(UnregisterClient(s, c), None, false)
    case Object(t) => Received(s, HandleMessage(s, t), true)
  }

  /** Of all frames, only a `ping` or `get_state` object gets a reply, and
      only a non-object one closes the connection. */
  lemma FrameOutcomes(s: Server, c: ClientId, frame: Incoming)
    ensures ReceiveFrame(s, c, frame).reply.Some? <==>
      frame.Object? && (frame.messageType == Some("ping") || frame.messageType == Some("get_state"))
    ensures !ReceiveFrame(s, c, frame).open ==> c !in ReceiveFrame(s, c, frame).server.clients
  {
  }

  // ---------------------------------------------------------------------------
  // Updates called by the bot
  // ---------------------------------------------------------------------------

  /** A new round opens for bets with empty pots; the history is kept. */
  function RoundStarted(s: Server, roundNumber: int): (st: Step)
    ensures st.server.clients == s.clients
    ensures st.server.state == s.state.(round := roundNumber, phase := Betting, timeLeft := BETTING_PHASE,
                                        pumpPot := 0.0, dumpPot := 0.0, playerCount := 0)
    ensures st.server.state.recentResults == s.state.recentResults
    ensures st.broadcast == RoundStartedMsg(st.server.state)
  {
    var g := GameState(roundNumber, Betting, 20, 0.0, 0.0, 0, s.state.recentResults);
    Step(Server(s.clients, g), RoundStartedMsg(g))
  }

  /** A bet was placed: only the pots and the player count are overwritten. */
  function BetPlaced(s: Server, betType: string, amount: real, pumpPot: real, dumpPot: real, playerCount: int): (st: Step)
    ensures st.server.clients == s.clients
    ensures st.server.state.round == s.state.round && st.server.state.phase == s.state.phase
    ensures st.server.state.timeLeft == s.state.timeLeft
    ensures st.server.state.recentResults == s.state.recentResults
    ensures st.server.state.pumpPot == pumpPot && st.server.state.dumpPot == dumpPot
    ensures st.server.state.playerCount == playerCount
    ensures st.broadcast == BetPlacedMsg(betType, amount, pumpPot, dumpPot, playerCount)
  {
    var g := s.state.(pumpPot := pumpPot, dumpPot := dumpPot, playerCount := playerCount);
    Step(Server(s.clients, g), BetPlacedMsg(betType, amount, pumpPot, dumpPot, playerCount))
  }

  /** Betting closed: the reveal countdown starts with the final pots. The
      round number is only logged, not stored. */
  function BettingClosed(s: Server, roundNumber: int, pumpPot: real, dumpPot: real, playerCount: int): (st: Step)
    ensures st.server.clients == s.clients
    ensures st.server.state.phase == Revealing && st.server.state.timeLeft == 15
    ensures st.server.state.pumpPot == pumpPot && st.server.state.dumpPot == dumpPot
    ensures st.server.state.playerCount == playerCount
    ensures st.server.state.round == s.state.round
    ensures st.server.state.recentResults == s.state.recentResults
    ensures st.broadcast == BettingClosedMsg(st.server.state)
  {
    var g := s.state.(phase := Revealing, timeLeft := 15, pumpPot := pumpPot, dumpPot := dumpPot,
                      playerCount := playerCount);
    Step(Server(s.clients, g), BettingClosedMsg(g))
  }

  /** The newest result goes in front; the list is cut back to its capacity. */
  function PushRecent(recent: seq<Entry>, e: Entry): (r: seq<Entry>)
    ensures |r| <= RECENT_CAPACITY
    ensures |r| == if |recent| + 1 > RECENT_CAPACITY then RECENT_CAPACITY else |recent| + 1
    ensures r[0] == e
    ensures r[1..] == recent[..|r| - 1]
  {
    var inserted := [e] + recent;
    if |inserted| > 10 then inserted[..10] else inserted
  }

  /** A round finished: back to waiting for three seconds and the result
      recorded at the front of the history. */
  function RoundResult(s: Server, roundNumber: int, result: Side, totalPot: real, winnerCount: int): (st: Step)
    ensures st.server.clients == s.clients
    ensures st.server.state.phase == Waiting && st.server.state.timeLeft == 3
    ensures st.server.state.round == s.state.round
    ensures st.server.state.pumpPot == s.state.pumpPot && st.server.state.dumpPot == s.state.dumpPot
    ensures st.server.state.playerCount == s.state.playerCount
    ensures 1 <= |st.server.state.recentResults| <= RECENT_CAPACITY
    ensures st.server.state.recentResults[0] == Entry(roundNumber, result, totalPot, winnerCount)
    ensures st.server.state.recentResults[1..] ==
      s.state.recentResults[..if |s.state.recentResults| < RECENT_CAPACITY then |s.state.recentResults| else RECENT_CAPACITY - 1]
    ensures st.broadcast == RoundResultMsg(roundNumber, result, totalPot, winnerCount, st.server.state.recentResults)
  {
    var recent := PushRecent(s.state.recentResults, Entry(roundNumber, result, totalPot, winnerCount));
    var g := s.state.(phase := Waiting, timeLeft := 3, recentResults := recent);
    Step(Server(s.clients, g), RoundResultMsg(roundNumber, result, totalPot, winnerCount, recent))
  }

  /** The countdown ticked: only `timeLeft` is overwritten. */
  function Timer(s: Server, timeLeft: int): (st: Step)
    ensures st.server.clients == s.clients
    ensures st.server.state == s.state.(timeLeft := timeLeft)
    ensures st.broadcast == TimerMsg(timeLeft)
  {
    Step(Server(s.clients, s.state.(timeLeft := timeLeft)), TimerMsg(timeLeft))
  }

  // ---------------------------------------------------------------------------
  // Properties across updates
  // ---------------------------------------------------------------------------

  /** A bet notification and a timer tick touch disjoint fields, so their
      order does not matter. */
  lemma BetAndTimerCommute(s: Server, betType: string, amount: real, pumpPot: real, dumpPot: real,
                           playerCount: int, timeLeft: int)
    ensures Timer(BetPlaced(s, betType, amount, pumpPot, dumpPot, playerCount).server, timeLeft).server
         == BetPlaced(Timer(s, timeLeft).server, betType, amount, pumpPot, dumpPot, playerCount).server
  {
  }

  /** Reference definition of the history: the last `RECENT_CAPACITY`
      results, newest first. */
  function NewestFirst(results: seq<Entry>): (r: seq<Entry>)
    ensures |r| == if |results| < RECENT_CAPACITY then |results| else RECENT_CAPACITY
    ensures forall i :: 0 <= i < |r| ==> r[i] == results[|results| - 1 - i]
  {
    if |results| == 0 then []
    else
      var rest := NewestFirst(results[..|results| - 1]);
      [results[|results| - 1]] + rest[..if |rest| < RECENT_CAPACITY then |rest| else RECENT_CAPACITY - 1]
  }

  /** Publishing results one after another, from any history, ends with
      whatever `PushRecent` makes of them in turn. */
  function PublishAll(recent: seq<Entry>, results: seq<Entry>): seq<Entry>
    decreases |results|
  {
    if |results| == 0 then recent
    else PushRecent(PublishAll(recent, results[..|results| - 1]), results[|results| - 1])
  }

  /** From an empty history, the published list is always the most recent
      results, newest first, capped at ten. */
  lemma {:induction false} PublishAllKeepsNewest(results: seq<Entry>)
    ensures PublishAll([], results) == NewestFirst(results)
    decreases |results|
  {
    if |results| > 0 {
      var n := |results| - 1;
      PublishAllKeepsNewest(results[..n]);
      var before := PublishAll([], results[..n]);
      var x := results[n];
      assert |before| <= RECENT_CAPACITY;
      var k := if |before| < RECENT_CAPACITY then |before| else RECENT_CAPACITY - 1;
      assert NewestFirst(results) == [x] + before[..k] by {
        assert results[..|results| - 1] == results[..n];
      }
      assert PushRecent(before, x) == [x] + before[..k];
    }
  }

  /** One full round as the observer sees it: opened, closed, resolved. The
      state is back to waiting, with this round's result at the head of the
      history and the pots as they stood at closing. */
  lemma RoundLifecycle(s: Server, roundNumber: int, pumpPot: real, dumpPot: real, playerCount: int,
                       result: Side, winnerCount: int)
    ensures var s1 := RoundStarted(s, roundNumber).server;
      var s2 := BettingClosed(s1, roundNumber, pumpPot, dumpPot, playerCount).server;
      var s3 := RoundResult(s2, roundNumber, result, pumpPot + dumpPot, winnerCount).server;
      && s3.state.round == roundNumber && s3.state.phase == Waiting
      && s3.state.pumpPot == pumpPot && s3.state.dumpPot == dumpPot
      && s3.state.recentResults[0] == Entry(roundNumber, result, pumpPot + dumpPot, winnerCount)
      && s3.clients == s.clients
  {
  }
}

=== FILE: stats.dfy ===
/** The player statistics of bot/handlers/stats.py and the win rate of
    `get_user_stats` in bot/services/database.py: profit status, average
    bet, the performance tier ladder and the rank-line guard. SQL rounding
    and the message wording are left out. */
module Stats {
  import opened Wrappers
  import Ledger

  // ---------------------------------------------------------------------------
  // Performance rating
  // ---------------------------------------------------------------------------

  datatype Tier = Legendary | Expert | Pro | Skilled | Learning | Beginner

  /** Position on the ladder, best first. */
  function Rank(t: Tier): (k: nat)
    ensures k <= 5
  {
    match t
    case Legendary => 0
    case Expert => 1
    case Pro => 2
    case Skilled => 3
    case Learning => 4
    case Beginner => 5
  }

  /** The bar each tier sets, on its own. */
  predicate Qualifies(t: Tier, winRate: real, profit: real) {
    match t
    case Legendary => winRate >= 60.0 && profit > 1.0
    case Expert => winRate >= 55.0 && profit > 0.5
    case Pro => winRate >= 50.0 && profit > 0.0
    case Skilled => winRate >= 45.0
    case Learning => winRate >= 40.0
    case Beginner => true
  }

  /** `get_performance_rating`: the tests in order, the first that holds wins. */
  function PerformanceRating(winRate: real, profit: real): (t: Tier)
    ensures Qualifies(t, winRate, profit)
  {
    if winRate >= 60.0 && profit > 1.0 then Legendary
    else if winRate >= 55.0 && profit > 0.5 then Expert
    else if winRate >= 50.0 && profit > 0.0 then Pro
    else if winRate >= 45.0 then Skilled
    else if winRate >= 40.0 then Learning
    else Beginner
  }

  /** The rating is the best tier whose bar is met: no better tier qualifies. */
  lemma RatingIsBestQualifying(winRate: real, profit: real, t: Tier)
    requires Rank(t) < Rank(PerformanceRating(winRate, profit))
    ensures !Qualifies(t, winRate, profit)
  {
  }

  /** Below a 40% win rate the rating is always Beginner, and only then. */
  lemma BeginnerExactlyBelowForty(winRate: real, profit: real)
    ensures PerformanceRating(winRate, profit) == Beginner <==> winRate < 40.0
  {
  }

  /** From a 45% win rate on, the rating is at least Skilled. */
  lemma FortyFiveIsAtLeastSkilled(winRate: real, profit: real)
    requires winRate >= 45.0
    ensures PerformanceRating(winRate, profit) != Learning
    ensures PerformanceRating(winRate, profit) != Beginner
  {
  }

  /** A better win rate and a better profit never give a worse tier. */
  lemma RatingMonotone(w1: real, p1: real, w2: real, p2: real)
    requires w1 <= w2 && p1 <= p2
    ensures Rank(PerformanceRating(w2, p2)) <= Rank(PerformanceRating(w1, p1))
  {
    var t1 := PerformanceRating(w1, p1);
    assert Qualifies(t1, w2, p2);
    if Rank(PerformanceRating(w2, p2)) > Rank(t1) {
      RatingIsBestQualifying(w2, p2, t1);
    }
  }

  // ---------------------------------------------------------------------------
  // Profit status, average bet, win rate
  // ---------------------------------------------------------------------------

  datatype ProfitStatus = Profitable | AtLoss | BreakEven

  /** The status of `profit_loss = total_won - total_wagered`. */
  function StatusOf(totalWon: real, totalWagered: real): (s: ProfitStatus)
    ensures s == Profitable <==> totalWon > totalWagered
    ensures s == AtLoss <==> totalWon < totalWagered
    ensures s == BreakEven <==> totalWon == totalWagered
  {
    var profitLoss := totalWon - totalWagered;
    if profitLoss > 0.0 then Profitable
    else if profitLoss < 0.0 then AtLoss
    else BreakEven
  }

  /** `avg_bet`: the stake per game played, 0 before the first game. */
  function AverageBet(totalWagered: real, gamesPlayed: int): (a: real)
    ensures gamesPlayed > 0 ==> a * gamesPlayed as real == totalWagered
    ensures gamesPlayed <= 0 ==> a == 0.0
    ensures gamesPlayed > 0 && totalWagered >= 0.0 ==> 0.0 <= a <= totalWagered
  {
    if gamesPlayed > 0 then totalWagered / gamesPlayed as real else 0.0
  }

  /** `win_rate` as a percentage of games played, 0 before the first game
      (SQL `ROUND(..., 2)` left out). */
  function WinRate(wins: int, gamesPlayed: int): (r: real)
    ensures gamesPlayed > 0 ==> r * gamesPlayed as real == wins as real * 100.0
    ensures gamesPlayed <= 0 ==> r == 0.0
    ensures gamesPlayed > 0 && 0 <= wins <= gamesPlayed ==> 0.0 <= r <= 100.0
  {
    if gamesPlayed > 0 then wins as real / gamesPlayed as real * 100.0 else 0.0
  }

  // ---------------------------------------------------------------------------
  // The statistics view
  // ---------------------------------------------------------------------------

  datatype StatsView =
    | NoData
    | Summary(profitLoss: real, averageBet: real, winRate: real, status: ProfitStatus, rating: Tier)

  /** `my_stats_callback`: nothing for an unknown user, otherwise the
      derived figures of the user's row. */
  function MyStats(user: Option<Ledger.User>): (v: StatsView)
    ensures v == NoData <==> user.None?
    ensures v.Summary? ==>
      var u := user.value;
      && v.profitLoss == u.totalWon - u.totalWagered
      && v.averageBet == AverageBet(u.totalWagered, u.gamesPlayed)
      && v.winRate == WinRate(u.wins, u.gamesPlayed)
      && v.status == StatusOf(u.totalWon, u.totalWagered)
      && v.rating == PerformanceRating(v.winRate, v.profitLoss)
  {
    match user
    case None => NoData
    case Some(u) =>
      var winRate := WinRate(u.wins, u.gamesPlayed);
      var profitLoss := u.totalWon - u.totalWagered;
      Summary(profitLoss, AverageBet(u.totalWagered, u.gamesPlayed), winRate,
              StatusOf(u.totalWon, u.totalWagered), PerformanceRating(winRate, profitLoss))
  }

  /** A freshly created account breaks even, has bet nothing on average, a
      zero win rate and the Beginner tier. */
  lemma NewUserStats(username: Option<string>, firstName: Option<string>)
    ensures MyStats(Some(Ledger.NewUser(username, firstName))) == Summary(0.0, 0.0, 0.0, BreakEven, Beginner)
  {
  }

  /** The rank line below the leaderboard: shown only for a ranked user
      outside the top ten. */
  function ShowRank(rank: Option<int>): (shown: bool)
    ensures shown <==> rank.Some? && rank.value > 10
  {
    match rank
    case None => false
    case Some(r) => r > 10
  }
}

=== FILE: wrappers.dfy ===
/** Optional values: a SQL row that may be absent, a dictionary key that may be
    missing, a Python `None`. */
module Wrappers {

  datatype Option<+T> = None | Some(value: T)
}
